=== FILE: README.md ===
# Shopping storefront core in Dafny

This project models the business rules of a small Laravel storefront (with a
Vue front end) and proves properties about them. Its database tables, request
session, clock, random source and password hasher are replaced by immutable
values and explicit parameters, so each controller action becomes a pure
transition function:

- **Order placement** (`OrderPlacement`): `OrderController::store` as a fold
  over the requested lines against the product table. Each line checks stock,
  snapshots name and price into an order item and decrements the stock; the
  subtotal gets the 9.99 shipping fee up to and including 100.00. A failing
  line rolls the whole transaction back. Money is in integer cents.
- **Order numbers and the status scope** (`OrderModel`): the
  `ORD-Ymd-XXXX` number, drawn until it collides with no stored order, and
  `scopeFilter`.
- **Carts** (`Carts`): the session cart merge that the routed `POST /cart/add`
  performs (only signed-in users reach it, and it writes the session, not
  `cart_items`), the `cart_items` upsert on (user, product) of
  `CartController::addToCart` (which no route reaches), the bounded quantity
  replace and owner-scoped removal.
- **OTP password reset** (`FlashSession`, `PasswordReset`): the token table,
  the flashed session (with Laravel's flash aging: a flashed key lives for one
  more request unless kept), and user passwords. It covers issuing a code,
  verifying it, showing the reset form and resetting the password.
- **Small rules**: the four role gates (`Gates`), the address match
  (`AddressBook`), related-product selection and the category/brand input
  rewrite (`ProductService`), the title-case name formatter (`NameFormat`)
  and the product-list filter rewrite (`CatalogueFilter`).

`Wrappers` holds `Option` and `Result`. `Php` holds PHP truthiness, where `""`
and `"0"` are falsy.

Abstractions used throughout:

- `Hash::make` is the injective constructor `Hashed(code)`.
- `rand(100000, 999999)` is `100000 + seed % 900000` for a natural-number seed.
- `random_bytes(2)` is one `Sample` per attempt, taken from a supplied sequence of draws.
- `inRandomOrder()` is a supplied permutation of the matching products.
- `now()` is an integer timestamp or a `Date`.

### Behaviour worth noting

- **Expiry boundary.** A code counts as expired once `expiredAt <= now`
  (app/Http/Controllers/OtpVerifyController.php:25), so the boundary instant
  is already expired, and a missing expiry counts as expired too. The expiry
  is read from the session, not from the token row.
- **One rejection.** A missing token row, a wrong code and an expired code all
  give the same "Invalid OTP" rejection.
- **No proof token.** `verifyOtp` generates a random route token but no
  controller checks it. `show` checks only the session keyword. `reset` checks
  only that the session email belongs to a user and never looks at the
  keyword (`PasswordReset.ResetIgnoresKeyword`).
- **Another user's cart item.** In `update` and `remove`, an id that exists but
  belongs to another user makes `find` return null. `update` then reads a
  property of null and `remove` calls `delete()` on null, which raises an
  `Error`. The model returns a `Failure` there and changes nothing.
- **Signed-in adds go to the session.** The only routed add,
  `POST /cart/add`, sits behind the `auth` middleware (routes/web.php:29-30)
  and merges into the session's `cart`. The `cart_items` upsert in
  `CartController::addToCart` is reachable by no route; `update`, `remove` and
  `show` work on `cart_items`.
- **Categories outlive a brand failure.** `createProduct` runs no transaction.
  When `brand_id` is a list, the category rows are written before reading the
  brand's `slug` raises, and they stay (`ProductService.GetNewCategoriesAndBrandIds`).

## Model

| member | source | states |
|---|---|---|
| OrderPlacement.Store | app/Http/Controllers/OrderController.php:231-282 | An empty `address`, a blank `payment_method` or an empty `items` list fails validation, naming the failing fields in rule order, and nothing else fails that way. A failed order leaves products, orders and order items exactly as they were. A successful one appends one order with the next id, the caller's user id, address and payment method, the column-default status, `total_items` equal to the sum of the requested quantities, and an order number that is well formed and used by no stored order. |
| OrderPlacement.InvalidFields | app/Http/Controllers/OrderController.php:231-235 | Lists `address`, `payment_method` and `items` exactly when each fails its `required` rule. |
| OrderPlacement.EmptyItemsRejected | app/Http/Controllers/OrderController.php:231-235 | An order without items fails validation and writes nothing. |
| OrderPlacement.PlaceLines | app/Http/Controllers/OrderController.php:255-271 | A successful fold creates exactly one order item per requested line and keeps the set of products. A failure is always one of the three per-line errors. |
| OrderPlacement.PlaceLinesSucceeds | app/Http/Controllers/OrderController.php:255-260 | The fold succeeds iff no line fails against the stock it sees after earlier decrements. |
| OrderPlacement.PlaceLinesFirstError | app/Http/Controllers/OrderController.php:255-260 | A failing fold reports the error of the first failing line. |
| OrderPlacement.PlaceLinesFailure | app/Http/Controllers/OrderController.php:255-260 | The fold succeeds iff no line fails against the stock it sees after earlier decrements. Otherwise the error is the one for the first failing line: out of stock when the seen stock is 0, not enough stock when it is below the quantity, or the missing product. |
| OrderPlacement.PlaceLinesStock | app/Http/Controllers/OrderController.php:257-269 | After success, every product's stock is its old stock minus the total quantity requested for it over all lines. |
| OrderPlacement.PlaceLinesNonNegative | app/Http/Controllers/OrderController.php:257-269 | Because a repeated product is re-read after the earlier decrement, stocks that were non-negative stay non-negative. |
| OrderPlacement.PlaceLinesItems | app/Http/Controllers/OrderController.php:262-270 | Item i, in input order, records the name and price the product had before the order, plus line i's quantity. The subtotal is the sum of price times quantity at those prices. |
| OrderPlacement.SubtotalSamePrices | app/Http/Controllers/OrderController.php:270 | The subtotal depends only on prices, so stock decrements during the fold do not change it. |
| OrderPlacement.StoreSuccess | app/Http/Controllers/OrderController.php:238-276 | When the request is valid, an order number is available and every line can be served, the order succeeds. Then `total_amount` is the subtotal plus 999 cents when the subtotal is at most 10000 cents, and plus 0 otherwise. One item per line is appended after the existing items, the stock drops by the requested totals, and no stock becomes negative. |
| OrderPlacement.StoreFailure | app/Http/Controllers/OrderController.php:241-281 | When the request is valid and some line fails, the order fails with the first failing line's error and the shop is unchanged. |
| OrderPlacement.ZeroStockMessage | app/Http/Controllers/OrderController.php:259 | A product with stock 0 fails with "Product <name> is out of stock". |
| OrderPlacement.ShippingBoundary | app/Http/Controllers/OrderController.php:273 | A subtotal of 100.00 pays the 9.99 fee; a subtotal of 100.01 pays none. |
| OrderPlacement.NegativeQuantityRestocks | app/Http/Controllers/OrderController.php:255-270 | A negative quantity passes the stock checks, raises the stock and lowers the total. |
| OrderModel.Candidate | app/Models/Order.php:25-29 | A candidate number has 17 characters: `ORD-`, the eight `Ymd` digits of today, `-`, then the four upper-case hex digits of the two random bytes. |
| OrderModel.YmdParses | app/Models/Order.php:26 | The eight date digits read back as today's year, month and day. |
| OrderModel.UpperHexParses | app/Models/Order.php:27 | The four hex digits read back as the two random bytes. |
| OrderModel.ParseCandidate | app/Models/Order.php:25-29 | Parsing a candidate gives back the date and the random draw it was built from. |
| OrderModel.CandidateInjective | app/Models/Order.php:25-29 | Different (date, bytes) pairs never give the same number. |
| OrderModel.GenerateOrderNumber | app/Models/Order.php:24-36 | The number is well formed, carries today's date, and is used by no stored order. It comes from the first draw that does not collide, so an unused first candidate is returned unchanged. There is no result iff every supplied draw collides. |
| OrderModel.ScopeFilter | app/Models/Order.php:38-42 | A missing or falsy status leaves the orders unchanged. Otherwise the result keeps exactly the orders with that status, each as often as before. |
| OrderModel.WithStatus | app/Models/Order.php:39-41 | Every kept order has the status, and every order with the status is kept. |
| Carts.SessionAdd | app/Http/Controllers/AddToCartController.php:12-17 | The product's quantity becomes its old quantity (0 if absent) plus the added quantity. The keys grow by at most that product, and every other entry is unchanged. |
| Carts.SessionAddMerges | app/Http/Controllers/AddToCartController.php:16 | Adding q1 and then q2 of a product gives the same cart as adding q1 + q2 once. |
| Carts.SessionAddCommutes | app/Http/Controllers/AddToCartController.php:16 | Adds of two different products can happen in either order. |
| Carts.ReplaySums | app/Http/Controllers/AddToCartController.php:16 | After any sequence of adds, each quantity is its old value plus all increments for that product. |
| Carts.FindPair | app/Http/Controllers/CartController.php:19-20 | Finds the first row for the (user, product) pair, or reports that no row has that pair. |
| Carts.AuthAdd | app/Http/Controllers/CartController.php:18-22 | The stored quantity for the pair grows by the added quantity, and every other pair is unchanged. At most one row per pair and unique row ids are preserved, and at most one row is added. |
| Carts.ProductsOfAuthAdd | app/Http/Controllers/CartController.php:19-22 | After the upsert, a user's cart lists exactly its old products, plus the added one for the acting user. |
| Carts.AuthAddIsSessionAdd | app/Http/Controllers/CartController.php:18-26 | For the acting user, the `cart_items` upsert of the unrouted `addToCart` changes the user's rows exactly as the session merge changes the session cart. |
| Carts.AuthAddOtherUsers | app/Http/Controllers/CartController.php:19-22 | Other users' carts are unchanged by the upsert. |
| Carts.FindOwned | app/Http/Controllers/CartController.php:42 | The lookup is scoped to the current user: it finds the first row with that id and user, or reports that none exists. |
| Carts.Update | app/Http/Controllers/CartController.php:36-48 | It fails iff the item is not among the user's rows or its product is missing. Otherwise it replaces the quantity outright when 1 <= quantity <= stock, and leaves the rows unchanged when not. No other row changes. |
| Carts.Remove | app/Http/Controllers/CartController.php:49-56 | It fails iff the item is not among the user's rows. Otherwise it deletes exactly that row and keeps the rest in order. |
| Carts.OtherUsersUntouched | app/Http/Controllers/CartController.php:36-56 | `update` and `remove` never change another user's rows. |
| Carts.RemoveKeepsOthers | app/Http/Controllers/CartController.php:54 | With unique ids, a row survives removal iff its id is not the removed one. |
| Carts.RemoveExactlyOne | app/Http/Controllers/CartController.php:54 | Removal shortens the table by exactly one and keeps ids unique. |
| FlashSession.Flash | app/Http/Controllers/Settings/PasswordResetController.php:45-49 | A flashed key reads back its value and is scheduled for the next request only. Every other key keeps its value and its place in the new and old flash sets. |
| FlashSession.Keep | app/Http/Controllers/Settings/PasswordResetController.php:19 | Keeping moves the keys from last request's flash set to this request's, and leaves the data and every other key's flash state unchanged. |
| FlashSession.Forget | app/Http/Controllers/Settings/PasswordResetController.php:53 | Forgotten keys read as null; every other key is unchanged, and both flash sets are left as they were. |
| FlashSession.EndRequest | app/Http/Controllers/Settings/PasswordResetController.php:19 | Laravel's end-of-request flash aging (`Store::ageFlashData`), which the `keep` call here works against: last request's flash data is dropped and this request's flash keys become old; nothing else changes. |
| FlashSession.FlashLivesOneRequest | app/Http/Controllers/Settings/PasswordResetController.php:45-49 | A flashed value can still be read in the next request. |
| FlashSession.FlashExpiresAfterTwo | app/Http/Controllers/Settings/PasswordResetController.php:45-49 | A flashed value that is never kept is gone after the following request. |
| FlashSession.KeepExtendsLife | app/Http/Controllers/Settings/PasswordResetController.php:19 | A kept key survives the end of the request. |
| PasswordReset.OtpCode | app/Http/Controllers/Settings/PasswordResetController.php:34 | The code lies in [100000, 999999], so it always has six digits. |
| PasswordReset.OtpCodeCovers | app/Http/Controllers/Settings/PasswordResetController.php:34 | Every six-digit code can be drawn. |
| PasswordReset.Create | app/Http/Controllers/Settings/PasswordResetController.php:14-26 | The page shows the flashed email, expiry and status. When an email is present, the three values survive this request; when it is absent, the session is untouched. Either way the data is unchanged and no key outside the three changes its value or flash state. |
| PasswordReset.CreateWithoutEmailLetsFlashExpire | app/Http/Controllers/Settings/PasswordResetController.php:16-19 | Without an email, nothing is kept, so last request's flash data expires. |
| PasswordReset.ChangeEmail | app/Http/Controllers/Settings/PasswordResetController.php:52-55 | Email, expiredAt and status are removed; the rest of the session is unchanged. |
| PasswordReset.IssueOtp | app/Http/Controllers/Settings/PasswordResetController.php:28-50 | It fails iff the email belongs to no user. Otherwise the code is six digits, and the token table holds one row for the email with the code's hash and the current time. Other emails' rows are unchanged. Email, expiredAt = now + 180 and the status message are flashed, and the code is mailed to that email. Every other key keeps its value and flash state. |
| PasswordReset.ReissueReplacesToken | app/Http/Controllers/Settings/PasswordResetController.php:35-41 | A second request replaces the first code's hash, so the old code no longer matches. |
| PasswordReset.VerifyOtp | app/Http/Controllers/OtpVerifyController.php:12-39 | It rejects when no row exists for the session email, when the code does not match the hash, or when `expiredAt <= now`, and accepts otherwise. A rejection leaves the tokens unchanged and re-flashes email, expiredAt and status. An acceptance deletes that email's row and flashes the email and the `success_otp_verify` keyword. No other session key changes its value or flash state. |
| PasswordReset.VerifyConsumesToken | app/Http/Controllers/OtpVerifyController.php:23-37 | After an accepted verification, any further verification for that email fails. |
| PasswordReset.Show | app/Http/Controllers/Settings/NewPasswordController.php:11-19 | The form is shown iff the session keyword is exactly `success_otp_verify`. With an email present, email and keyword survive the request. The data and every other key's flash state are unchanged. |
| PasswordReset.Reset | app/Http/Controllers/Settings/NewPasswordController.php:18-38 | A blank or unconfirmed password fails validation and touches no user. With an acceptable password, it updates the password iff the session email belongs to a user. Only that user's password changes, email and keyword are cleared, and the status "Password updated successfully" is flashed; no other key changes. On any other reply no password changes, the session data is unchanged, a present email carries email and keyword into the next request, and no key other than email and keyword changes. |
| PasswordReset.ResetRetry | app/Http/Controllers/Settings/NewPasswordController.php:18-33 | After a failed validation the next request, with an acceptable password, updates it. |
| PasswordReset.ResetIgnoresKeyword | app/Http/Controllers/Settings/NewPasswordController.php:20-33 | The outcome of `reset` does not depend on the session keyword. |
| PasswordReset.OtpFlow | app/Http/Controllers/OtpVerifyController.php:12-39 | The full flow works: issue, show the form, verify the mailed code within three minutes, show the reset form, reset. Verification accepts once and fails a second time, and the user's password ends up as the submitted one. |
| PasswordReset.ExpiredCodeRejected | app/Http/Controllers/OtpVerifyController.php:25-26 | The correct code is rejected 180 seconds or more after it was issued. |
| PasswordReset.FlashLostWithoutKeep | app/Http/Controllers/Settings/PasswordResetController.php:19 | If an intermediate request does not keep the flashed values, the session email is gone and verification fails. |
| Gates.Allows | app/Providers/AppServiceProvider.php:29-40 | Only the three staff roles pass any gate, and `super_admin` passes all four. |
| Gates.StaffEqualsCustomerService | app/Providers/AppServiceProvider.php:29-40 | `access-staff-management` and `access-customer-service` admit the same roles. |
| Gates.GateChain | app/Providers/AppServiceProvider.php:32-40 | Passing `access-super-admin` implies passing `access-store-manager`, which implies passing `access-customer-service`. |
| Gates.CustomerServiceGates | app/Providers/AppServiceProvider.php:29-40 | `customer_service` passes exactly the staff-management and customer-service gates. |
| Gates.StoreManagerGates | app/Providers/AppServiceProvider.php:29-40 | `store_manager` passes every gate except the super-admin one. |
| Gates.OtherRolesPassNothing | app/Providers/AppServiceProvider.php:29-40 | Any other role string passes no gate. |
| AddressBook.ArrayDiff | app/Models/AddressBook.php:12 | A value is kept iff it occurs in the stored list and nowhere among the submitted values. |
| AddressBook.EmptyDiff | app/Models/AddressBook.php:12 | `array_diff` is empty iff every entry occurs among the other values. |
| AddressBook.Matches | app/Models/AddressBook.php:11-13 | The addresses match iff each of the six stored field values occurs among the submitted values, whatever its key. |
| AddressBook.OtherAttributesIgnored | app/Models/AddressBook.php:12 | Stored attributes outside the six fields do not affect the result. |
| AddressBook.MatchesMonotone | app/Models/AddressBook.php:12 | Adding entries to the submission never turns a match into a mismatch. |
| AddressBook.SameFieldsMatch | app/Models/AddressBook.php:12 | A submission with the same six field values always matches. |
| ProductService.Others | app/Services/ProductService.php:32-38 | Lists exactly the catalogue ids other than the product and the excluded ones, without duplicates. |
| ProductService.Take | app/Services/ProductService.php:36 | `limit(n)`: the first min(n, length) entries, still duplicate-free. |
| ProductService.LatestProducts | app/Services/ProductService.php:32-38 | At most four catalogue ids, never the product itself and without duplicates: the leading other products in catalogue order, all of them when there are fewer than four. |
| ProductService.RelatedProducts | app/Services/ProductService.php:40-68 | Never includes the product itself; has at most 4 entries, no duplicates, all from the catalogue. Falls back to the latest 4 others when the product has no categories or nothing matches. Otherwise it starts with the random matches, topped up with the latest others that are not already chosen. |
| ProductService.DistinctAppend | app/Services/ProductService.php:58-64 | Matches merged with top-up products that exclude them stay duplicate-free. |
| ProductService.TopUpCount | app/Services/ProductService.php:57-62 | Excluding the chosen matches leaves exactly that many fewer candidates for the top-up. |
| ProductService.RelatedFillsToFour | app/Services/ProductService.php:55-65 | With at least four other products, the result always has exactly four. |
| ProductService.FirstOrCreate | app/Services/ProductService.php:82-85 | Returns the id of the row for the slug. A new row with the given name and a fresh id is created only when the slug is absent, and existing rows are kept. |
| ProductService.FirstOrCreateAll | app/Services/ProductService.php:81-86 | Gives one id per input category, in order, each the id of that category's slug row. Existing rows are kept, and the only rows added are for the input's slugs. |
| ProductService.FirstOrCreateAllPresent | app/Services/ProductService.php:81-86 | When every slug already has a row, mapping the categories writes nothing. |
| ProductService.FirstOrCreateAllAgain | app/Services/ProductService.php:81-86 | Mapping the same categories again, as after a brand failure, returns the same ids and adds no row. |
| ProductService.GetNewCategoriesAndBrandIds | app/Services/ProductService.php:77-97 | Succeeds iff `categories` and `brand_id` are present, `categories` is a list (or null, which gives no categories) and `brand_id` is not a list. A missing key or non-list `categories` raises before anything is written. Once the categories are mapped, a row exists for every slug and existing rows are kept, even when a list-valued `brand_id` then raises. On success there is one category id per entry, no `categories` key and all other keys unchanged; a `brand_id` slug/name pair becomes its row's id and a scalar one is kept. |
| ProductService.RepeatedSlugSameId | app/Services/ProductService.php:81-86 | Categories with the same slug get the same id. |
| NameFormat.Trim | resources/js/composables/useGenerateName.js:4 | The result is the input minus its leading and trailing white space, and has no white space at either end. |
| NameFormat.JoinSplit | resources/js/composables/useGenerateName.js:6-8 | Joining the pieces of a split with single spaces gives the string back. |
| NameFormat.SplitJoin | resources/js/composables/useGenerateName.js:6-8 | Splitting a join of space-free pieces gives the pieces back. |
| NameFormat.CapitalizeWords | resources/js/composables/useGenerateName.js:7 | Fails iff some piece is empty; otherwise each piece has its first character upper-cased and the rest unchanged. |
| NameFormat.EmptyPieces | resources/js/composables/useGenerateName.js:6-7 | The first piece is empty iff the string is empty or starts with a space. A later piece is empty iff some space is last or followed by another space. |
| NameFormat.CapitalizeJoin | resources/js/composables/useGenerateName.js:7-8 | Capitalising each piece and joining is the same as upper-casing the first character and every character after a space. |
| NameFormat.GenerateName | resources/js/composables/useGenerateName.js:2-9 | The call throws iff the trimmed name is empty or contains two spaces in a row. Otherwise the result is the title case of the trimmed name, with the same length and the same number of words. |
| NameFormat.WordsCapitalized | resources/js/composables/useGenerateName.js:5-7 | Every output word is non-empty, starts with an upper-cased character and continues in lower case. |
| NameFormat.GenerateNameIdempotent | resources/js/composables/useGenerateName.js:3-8 | Formatting a formatted name gives it back unchanged. |
| CatalogueFilter.InitialCategory | resources/js/composables/useFilter.js:8 | The highlighted tab starts as the page's category when it is truthy, and as `all` otherwise. |
| CatalogueFilter.DropFalsy | resources/js/composables/useFilter.js:19 | The key stays iff it was present with a truthy value; no other key changes. |
| CatalogueFilter.NormalFilter | resources/js/composables/useFilter.js:11-23 | For `category`, the value is set even when falsy, `search` is kept, with its old value, iff it is truthy, and the tab becomes the value or `all`. For any other key, that key is present iff the value is truthy, `category` is kept iff it is truthy, and the tab is unchanged. Every other key is copied from the page's filter. |
| CatalogueFilter.NormalFilterIdempotent | resources/js/composables/useFilter.js:11-23 | Applying the same choice to the query it produced changes nothing. |
| CatalogueFilter.NonCategoryKeysCommute | resources/js/composables/useFilter.js:20-23 | Choices for two different non-category keys give the same query in either order. |
| CatalogueFilter.NoFalsyAfterOtherKey | resources/js/composables/useFilter.js:21-22 | After a non-category choice, neither the chosen key nor `category` holds a falsy value. |
| CatalogueFilter.ClearingCategory | resources/js/composables/useFilter.js:14-18 | Clearing the category keeps an empty `category` entry and highlights the `all` tab. |

## Left out

- Persistence, ORM and transactions: tables are in-memory values. `DB::transaction` is "return the old state on error".
- Concurrency: nothing models the missing row lock around the stock check or the atomicity of the `quantity + q` increment.
- Floating point: prices and totals are integer cents, not `decimal(10,2)` values rounded through PHP floats.
- Hashing, randomness and the clock: `Hash::make`/`check`, `rand`, `random_bytes`, `inRandomOrder` and `now()` are parameters (see the abstractions above).
- OrderModel.GenerateOrderNumber: the source redraws without bound. The model tries only the supplied draws and reports exhaustion, which `Store` surfaces as an error the source never produces.
- OrderPlacement.Store: the redirect with the success message is not returned. The order's stored status is a parameter, because the migration that sets its default is not part of this model.
- OrderPlacement.Store: the source validates only that `address`, `payment_method` and `items` are present and non-empty, never the entries of `items`, so zero and negative quantities are modelled as accepted (`NegativeQuantityRestocks`). A missing product is modelled as an error carrying PHP's null-property message.
- Carts.AuthAdd: when no row exists for the pair, the upsert inserts the raw `quantity + q` expression. What that stores depends on the database engine, so the model stores the added quantity, as if the missing row held 0.
- Request validation: validated fields are inputs, except that the `required` rules of the order and the password rules are modelled. The `exists:cart_items,id` check is folded into the `NoSuchItem` failure. Old input is not modelled, and of the validation error bags only the order's `required` messages are (`ErrorBag`).
- Mail and presentation: the OTP mail and its template, Inertia rendering, redirects, and the error-bag entries written by `withErrors` (the "Invalid OTP" rejection and the unknown-user reply of `reset`).
- PasswordReset.Reset: the `User` model's password-hashing cast is not part of this model, so the stored password is the submitted string.
- Php.Required: Laravel's input trimming is modelled for ASCII white space and NUL only, to decide whether a password or payment method is blank.
- The random 60-character route token in `verifyOtp` is never checked by any controller and is not modelled.
- The two-minute related-products cache and the 300 ms debounce of non-category filters are timing concerns and are not modelled; a debounced call is modelled as the call it eventually makes.
- CatalogueFilter.NormalFilter: the `router.get` visit is not modelled. The page's filter is an immutable value here, so the copy trivially leaves it unchanged.
- NameFormat.GenerateName: `toLowerCase`/`toUpperCase` are modelled for ASCII letters only, and other characters keep their case. The length and idempotence properties therefore hold for the model, not for every Unicode input.
- `getAllProducts`, `getProductDetail`, `createProduct` (the category sync) and the order listing actions are pagination, delegation or demo data and are not modelled.

=== FILE: address_book.dfy ===
/**
  `AddressBook::matches` (app/Models/AddressBook.php): a stored address matches
  a submitted one when `array_diff` of the six address fields against the
  submission is empty. `array_diff` compares values only, as strings, so the
  submitted keys play no part. A missing attribute reads as `null`, whose
  string form is the empty string.
*/
module AddressBook {

  type Attributes = map<string, string>

  const AddressFields: seq<string> :=
    ["phone", "contact_name", "street_address", "quarter_or_village", "township", "state_or_region"]

  /** `$this->getAttribute($field)` cast to string. */
  function Attr(stored: Attributes, field: string): string {
    if field in stored then stored[field] else ""
  }

  /** `$this->only(...)`: the stored values of `fields`, in order. */
  function Only(stored: Attributes, fields: seq<string>): (r: seq<string>)
    ensures |r| == |fields|
    ensures forall i :: 0 <= i < |fields| ==> r[i] == Attr(stored, fields[i])
  {
    if |fields| == 0 then [] else [Attr(stored, fields[0])] + Only(stored, fields[1..])
  }

  /** `array_diff($xs, $other)`: the entries of `xs` whose value occurs nowhere among `values`. */
  function ArrayDiff(xs: seq<string>, values: set<string>): (r: seq<string>)
    ensures forall v :: v in r <==> v in xs && v !in values
  {
    if |xs| == 0 then []
    else (if xs[0] in values then [] else [xs[0]]) + ArrayDiff(xs[1..], values)
  }

  /** `array_diff` is empty exactly when every entry occurs among the values. */
  lemma EmptyDiff(xs: seq<string>, values: set<string>)
    ensures |ArrayDiff(xs, values)| == 0 <==> forall i :: 0 <= i < |xs| ==> xs[i] in values
  {
    var diff := ArrayDiff(xs, values);
    if |diff| != 0 {
      assert diff[0] in diff;
    }
    if !(forall i :: 0 <= i < |xs| ==> xs[i] in values) {
      var i :| 0 <= i < |xs| && xs[i] !in values;
      assert xs[i] in diff;
    }
  }

  /** `empty(array_diff($this->only(...), $newAddress))`: each of the six stored values occurs among the submitted values. */
  function Matches(stored: Attributes, newAddress: Attributes): (r: bool)
    ensures r <==> forall i :: 0 <= i < |AddressFields| ==> Attr(stored, AddressFields[i]) in newAddress.Values
  {
    EmptyDiff(Only(stored, AddressFields), newAddress.Values);
    |ArrayDiff(Only(stored, AddressFields), newAddress.Values)| == 0
  }

  /** Attributes outside the six fields play no part. */
  lemma OtherAttributesIgnored(a: Attributes, b: Attributes, newAddress: Attributes)
    requires forall i :: 0 <= i < |AddressFields| ==> Attr(a, AddressFields[i]) == Attr(b, AddressFields[i])
    ensures Matches(a, newAddress) == Matches(b, newAddress)
  {
  }

  /** Adding entries to the submission never turns a match into a mismatch. */
  lemma MatchesMonotone(stored: Attributes, newAddress: Attributes, larger: Attributes)
    requires forall k :: k in newAddress ==> k in larger && larger[k] == newAddress[k]
    requires Matches(stored, newAddress)
    ensures Matches(stored, larger)
  {
    assert newAddress.Values <= larger.Values by {
      forall v | v in newAddress.Values ensures v in larger.Values {
        var k :| k in newAddress && newAddress[k] == v;
        assert larger[k] == v;
      }
    }
  }

  /** A submission carrying the same six field values always matches. */
  lemma SameFieldsMatch(stored: Attributes, newAddress: Attributes)
    requires forall i :: 0 <= i < |AddressFields| ==>
      AddressFields[i] in newAddress && newAddress[AddressFields[i]] == Attr(stored, AddressFields[i])
    ensures Matches(stored, newAddress)
  {
    forall i | 0 <= i < |AddressFields| ensures Attr(stored, AddressFields[i]) in newAddress.Values {
      assert newAddress[AddressFields[i]] in newAddress.Values;
    }
  }
}

=== FILE: carts.dfy ===
/**
  Cart accumulation and editing.

  The session cart is a map from product id to quantity. The routed
  `POST /cart/add` (`AddToCartController::__invoke`, behind the `auth`
  middleware in routes/web.php) merges into it, so signed-in adds land in the
  session; the guest branch of `CartController::addToCart` does the same.
  The `cart_items` table, modelled as a sequence of rows in id order, is
  written by the upsert branch of `addToCart`, which no route reaches, and is
  edited by the routed `update` and `remove`, which only search the current
  user's rows.
*/
module Carts {
  import opened Wrappers

  type ProductId = nat
  type UserId = nat

  /** The session's `cart` entry: product id to accumulated quantity. */
  type Cart = map<ProductId, int>

  /** `($cart[$productId] ?? 0)`. */
  function QuantityIn(cart: Cart, id: ProductId): int {
    if id in cart then cart[id] else 0
  }

  /** `$cart[$productId] = ($cart[$productId] ?? 0) + $quantity`. */
  function SessionAdd(cart: Cart, id: ProductId, quantity: int): (r: Cart)
    ensures QuantityIn(r, id) == QuantityIn(cart, id) + quantity
    ensures r.Keys == cart.Keys + {id}
    ensures forall p :: p in cart && p != id ==> r[p] == cart[p]
  {
    cart[id := QuantityIn(cart, id) + quantity]
  }

  /** Two adds of the same product are one add of the summed quantity. */
  lemma SessionAddMerges(cart: Cart, id: ProductId, q1: int, q2: int)
    ensures SessionAdd(SessionAdd(cart, id, q1), id, q2) == SessionAdd(cart, id, q1 + q2)
  {
  }

  /** Adds of different products commute. */
  lemma SessionAddCommutes(cart: Cart, a: ProductId, qa: int, b: ProductId, qb: int)
    requires a != b
    ensures SessionAdd(SessionAdd(cart, a, qa), b, qb) == SessionAdd(SessionAdd(cart, b, qb), a, qa)
  {
  }

  /** Applies a sequence of session-cart adds in order. */
  function Replay(cart: Cart, adds: seq<(ProductId, int)>): Cart
    decreases |adds|
  {
    if |adds| == 0 then cart else Replay(SessionAdd(cart, adds[0].0, adds[0].1), adds[1..])
  }

  function SumFor(adds: seq<(ProductId, int)>, id: ProductId): int {
    if |adds| == 0 then 0 else (if adds[0].0 == id then adds[0].1 else 0) + SumFor(adds[1..], id)
  }

  /** After any sequence of adds, each product's quantity is its old quantity plus all its increments. */
  lemma {:induction false} ReplaySums(cart: Cart, adds: seq<(ProductId, int)>, id: ProductId)
    ensures QuantityIn(Replay(cart, adds), id) == QuantityIn(cart, id) + SumFor(adds, id)
    decreases |adds|
  {
    if |adds| > 0 {
      ReplaySums(SessionAdd(cart, adds[0].0, adds[0].1), adds[1..], id);
    }
  }

  // ---------------------------------------------------------------------
  // The authenticated cart: rows of `cart_items`
  // ---------------------------------------------------------------------

  datatype CartRow = CartRow(id: nat, userId: UserId, productId: ProductId, quantity: int)

  /** The table's unique key on (user_id, product_id), as the upsert keeps it. */
  predicate UniquePairs(rows: seq<CartRow>) {
    forall i, j :: 0 <= i < j < |rows| ==>
      rows[i].userId != rows[j].userId || rows[i].productId != rows[j].productId
  }

  predicate UniqueIds(rows: seq<CartRow>) {
    forall i, j :: 0 <= i < j < |rows| ==> rows[i].id != rows[j].id
  }

  predicate IdUsed(rows: seq<CartRow>, id: nat) {
    exists i :: 0 <= i < |rows| && rows[i].id == id
  }

  /** The index of the row keyed (user, product), if any. */
  function FindPair(rows: seq<CartRow>, user: UserId, id: ProductId): (r: Option<nat>)
    ensures r.Some? ==> r.value < |rows| && rows[r.value].userId == user && rows[r.value].productId == id
    ensures r.Some? ==> forall j :: 0 <= j < r.value ==> rows[j].userId != user || rows[j].productId != id
    ensures r.None? ==> forall j :: 0 <= j < |rows| ==> rows[j].userId != user || rows[j].productId != id
    decreases |rows|
  {
    if |rows| == 0 then None
    else if rows[0].userId == user && rows[0].productId == id then Some(0)
    else
      match FindPair(rows[1..], user, id)
      case None => None
      case Some(k) => Some(k + 1)
  }

  /** The stored quantity for (user, product); an absent row counts as 0. */
  function StoredQuantity(rows: seq<CartRow>, user: UserId, id: ProductId): int {
    match FindPair(rows, user, id)
    case None => 0
    case Some(i) => rows[i].quantity
  }

  /**
    `CartItem::updateOrCreate(['user_id', 'product_id'], ['quantity' => quantity + q])`:
    add to the row for (user, product), or append a row holding `quantity`.
  */
  function AuthAdd(rows: seq<CartRow>, user: UserId, id: ProductId, quantity: int, freshId: nat)
    : (r: seq<CartRow>)
    requires !IdUsed(rows, freshId)
    ensures StoredQuantity(r, user, id) == StoredQuantity(rows, user, id) + quantity
    ensures forall u, p :: (u != user || p != id) ==> StoredQuantity(r, u, p) == StoredQuantity(rows, u, p)
    ensures UniquePairs(rows) ==> UniquePairs(r)
    ensures UniqueIds(rows) ==> UniqueIds(r)
    ensures |rows| <= |r| <= |rows| + 1
  {
    match FindPair(rows, user, id)
    case Some(i) =>
      var r := rows[i := rows[i].(quantity := rows[i].quantity + quantity)];
      assert forall u, p :: FindPair(r, u, p) == FindPair(rows, u, p) by {
        forall u, p ensures FindPair(r, u, p) == FindPair(rows, u, p) {
          FindPairSameKeys(rows, r, u, p);
        }
      }
      r
    case None =>
      var r := rows + [CartRow(freshId, user, id, quantity)];
      assert forall u, p :: FindPair(rows, u, p).Some? ==> FindPair(r, u, p) == FindPair(rows, u, p) by {
        forall u, p | FindPair(rows, u, p).Some? ensures FindPair(r, u, p) == FindPair(rows, u, p) {
          FindPairExtend(rows, CartRow(freshId, user, id, quantity), u, p);
        }
      }
      assert forall u, p :: FindPair(rows, u, p).None? ==> StoredQuantity(r, u, p) == if u == user && p == id then quantity else 0 by {
        forall u, p | FindPair(rows, u, p).None?
          ensures StoredQuantity(r, u, p) == if u == user && p == id then quantity else 0
        {
          FindPairExtend(rows, CartRow(freshId, user, id, quantity), u, p);
        }
      }
      r
  }

  /** Rows with the same (user, product) keys in the same places are searched alike. */
  lemma {:induction false} FindPairSameKeys(a: seq<CartRow>, b: seq<CartRow>, user: UserId, id: ProductId)
    requires |a| == |b|
    requires forall i :: 0 <= i < |a| ==> a[i].userId == b[i].userId && a[i].productId == b[i].productId
    ensures FindPair(a, user, id) == FindPair(b, user, id)
    decreases |a|
  {
    if |a| > 0 {
      FindPairSameKeys(a[1..], b[1..], user, id);
    }
  }

  /** Appending a row changes the search only for a key no earlier row holds. */
  lemma {:induction false} FindPairExtend(rows: seq<CartRow>, row: CartRow, user: UserId, id: ProductId)
    ensures FindPair(rows, user, id).Some? ==> FindPair(rows + [row], user, id) == FindPair(rows, user, id)
    ensures FindPair(rows, user, id).None? ==>
      FindPair(rows + [row], user, id) == if row.userId == user && row.productId == id then Some(|rows|) else None
    decreases |rows|
  {
    if |rows| > 0 {
      assert (rows + [row])[1..] == rows[1..] + [row];
      FindPairExtend(rows[1..], row, user, id);
    }
  }

  /** A user's `cart_items` rows as a map, the same shape as the session cart. */
  function CartOf(rows: seq<CartRow>, user: UserId): Cart {
    map id | id in ProductsOf(rows, user) :: StoredQuantity(rows, user, id)
  }

  function ProductsOf(rows: seq<CartRow>, user: UserId): set<ProductId> {
    set i | 0 <= i < |rows| && rows[i].userId == user :: rows[i].productId
  }

  lemma ProductsOfFind(rows: seq<CartRow>, user: UserId, id: ProductId)
    ensures id in ProductsOf(rows, user) <==> FindPair(rows, user, id).Some?
  {
    if FindPair(rows, user, id).Some? {
      var i := FindPair(rows, user, id).value;
      assert rows[i].productId == id;
    }
  }

  /** The upsert adds `id` to the user's products and changes no other user's products. */
  lemma ProductsOfAuthAdd(rows: seq<CartRow>, user: UserId, id: ProductId, quantity: int, freshId: nat, u: UserId, p: ProductId)
    requires !IdUsed(rows, freshId)
    ensures p in ProductsOf(AuthAdd(rows, user, id, quantity, freshId), u)
      <==> (p in ProductsOf(rows, u) || (u == user && p == id))
  {
    var r := AuthAdd(rows, user, id, quantity, freshId);
    ProductsOfFind(r, u, p);
    ProductsOfFind(rows, u, p);
    if FindPair(rows, user, id).None? {
      FindPairExtend(rows, CartRow(freshId, user, id, quantity), u, p);
    } else {
      FindPairSameKeys(rows, r, u, p);
    }
  }

  /** The table upsert does to the user's rows exactly what the session merge does to the session cart. */
  lemma AuthAddIsSessionAdd(rows: seq<CartRow>, user: UserId, id: ProductId, quantity: int, freshId: nat)
    requires !IdUsed(rows, freshId)
    ensures CartOf(AuthAdd(rows, user, id, quantity, freshId), user) == SessionAdd(CartOf(rows, user), id, quantity)
  {
    var r := AuthAdd(rows, user, id, quantity, freshId);
    var lhs := CartOf(r, user);
    var rhs := SessionAdd(CartOf(rows, user), id, quantity);
    forall p ensures p in lhs <==> p in rhs {
      ProductsOfAuthAdd(rows, user, id, quantity, freshId, user, p);
    }
    forall p | p in lhs ensures lhs[p] == rhs[p] {
      ProductsOfFind(rows, user, p);
    }
  }

  /** The authenticated upsert leaves every other user's cart as it was. */
  lemma AuthAddOtherUsers(rows: seq<CartRow>, user: UserId, id: ProductId, quantity: int, freshId: nat, u: UserId)
    requires !IdUsed(rows, freshId)
    requires u != user
    ensures CartOf(AuthAdd(rows, user, id, quantity, freshId), u) == CartOf(rows, u)
  {
    var r := AuthAdd(rows, user, id, quantity, freshId);
    forall p ensures p in CartOf(r, u) <==> p in CartOf(rows, u) {
      ProductsOfAuthAdd(rows, user, id, quantity, freshId, u, p);
    }
  }

  // ---------------------------------------------------------------------
  // update and remove
  // ---------------------------------------------------------------------

  datatype CartError =
    | NoSuchItem   // the `exists:cart_items,id` rule rejects the request
    | NotOwned     // the id exists but `cartItems()->find` returns null for this user
    | ProductGone  // `$item->product` is null

  /** `$request->user()->cartItems()->find($id)`: the index of this user's row with that id. */
  function FindOwned(rows: seq<CartRow>, user: UserId, itemId: nat): (r: Option<nat>)
    ensures r.Some? ==> r.value < |rows| && rows[r.value].id == itemId && rows[r.value].userId == user
    ensures r.Some? ==> forall j :: 0 <= j < r.value ==> rows[j].id != itemId || rows[j].userId != user
    ensures r.None? ==> forall j :: 0 <= j < |rows| ==> rows[j].id != itemId || rows[j].userId != user
    decreases |rows|
  {
    if |rows| == 0 then None
    else if rows[0].id == itemId && rows[0].userId == user then Some(0)
    else
      match FindOwned(rows[1..], user, itemId)
      case None => None
      case Some(k) => Some(k + 1)
  }

  /** The lookup that fails the request: validation when the id is unknown, a null item when it is someone else's. */
  function OwnedIndex(rows: seq<CartRow>, user: UserId, itemId: nat): Result<nat, CartError> {
    match FindOwned(rows, user, itemId)
    case Some(i) => Success(i)
    case None => if IdUsed(rows, itemId) then Failure(NotOwned) else Failure(NoSuchItem)
  }

  /**
    `CartController::update`: replace the quantity of the user's row when
    1 <= quantity <= the product's stock; otherwise leave the cart as it is.
  */
  function Update(rows: seq<CartRow>, stock: map<ProductId, int>, user: UserId, itemId: nat, quantity: int)
    : (r: Result<seq<CartRow>, CartError>)
    ensures r.Failure? <==> FindOwned(rows, user, itemId).None? || rows[FindOwned(rows, user, itemId).value].productId !in stock
    ensures r.Success? ==>
      var i := FindOwned(rows, user, itemId).value;
      var limit := stock[rows[i].productId];
      && |r.value| == |rows|
      && (1 <= quantity <= limit ==> r.value[i] == rows[i].(quantity := quantity))
      && (!(1 <= quantity <= limit) ==> r.value == rows)
      && forall j :: 0 <= j < |rows| && j != i ==> r.value[j] == rows[j]
  {
    match OwnedIndex(rows, user, itemId)
    case Failure(e) => Failure(e)
    case Success(i) =>
      var row := rows[i];
      if row.productId !in stock then Failure(ProductGone)
      else if quantity <= 0 || quantity > stock[row.productId] then Success(rows)
      else Success(rows[i := row.(quantity := quantity)])
  }

  /** `CartController::remove`: delete exactly the user's row with that id. */
  function Remove(rows: seq<CartRow>, user: UserId, itemId: nat): (r: Result<seq<CartRow>, CartError>)
    ensures r.Failure? <==> FindOwned(rows, user, itemId).None?
    ensures r.Success? ==>
      var i := FindOwned(rows, user, itemId).value;
      r.value == rows[..i] + rows[i + 1..]
  {
    match OwnedIndex(rows, user, itemId)
    case Failure(e) => Failure(e)
    case Success(i) => Success(rows[..i] + rows[i + 1..])
  }

  /** The rows of one user, in table order. */
  function RowsOf(rows: seq<CartRow>, user: UserId): seq<CartRow> {
    if |rows| == 0 then []
    else (if rows[0].userId == user then [rows[0]] else []) + RowsOf(rows[1..], user)
  }

  lemma {:induction false} RowsOfAppend(a: seq<CartRow>, b: seq<CartRow>, user: UserId)
    ensures RowsOf(a + b, user) == RowsOf(a, user) + RowsOf(b, user)
    decreases |a|
  {
    if |a| == 0 {
      assert a + b == b;
    } else {
      assert (a + b)[1..] == a[1..] + b;
      RowsOfAppend(a[1..], b, user);
    }
  }

  /** Replacing a row of one user leaves every other user's rows as they were. */
  lemma RowsOfReplace(rows: seq<CartRow>, i: nat, row: CartRow, other: UserId)
    requires i < |rows| && rows[i].userId != other && row.userId != other
    ensures RowsOf(rows[i := row], other) == RowsOf(rows, other)
  {
    assert rows == rows[..i] + [rows[i]] + rows[i + 1..];
    assert rows[i := row] == rows[..i] + [row] + rows[i + 1..];
    RowsOfAppend(rows[..i] + [rows[i]], rows[i + 1..], other);
    RowsOfAppend(rows[..i], [rows[i]], other);
    RowsOfAppend(rows[..i] + [row], rows[i + 1..], other);
    RowsOfAppend(rows[..i], [row], other);
  }

  /** `update` and `remove` never touch another user's rows. */
  lemma OtherUsersUntouched(rows: seq<CartRow>, stock: map<ProductId, int>, user: UserId, itemId: nat, quantity: int, other: UserId)
    requires other != user
    ensures Update(rows, stock, user, itemId, quantity).Success? ==>
      RowsOf(Update(rows, stock, user, itemId, quantity).value, other) == RowsOf(rows, other)
    ensures Remove(rows, user, itemId).Success? ==>
      RowsOf(Remove(rows, user, itemId).value, other) == RowsOf(rows, other)
  {
    var found := FindOwned(rows, user, itemId);
    if found.Some? {
      var i := found.value;
      var u := Update(rows, stock, user, itemId, quantity);
      if u.Success? && 1 <= quantity <= stock[rows[i].productId] {
        RowsOfReplace(rows, i, rows[i].(quantity := quantity), other);
      }
      assert rows == rows[..i] + [rows[i]] + rows[i + 1..];
      RowsOfAppend(rows[..i] + [rows[i]], rows[i + 1..], other);
      RowsOfAppend(rows[..i], [rows[i]], other);
      RowsOfAppend(rows[..i], rows[i + 1..], other);
    }
  }

  /** `remove` keeps every row except the targeted one, which carries the removed id. */
  lemma RemoveKeepsOthers(rows: seq<CartRow>, user: UserId, itemId: nat, row: CartRow)
    requires UniqueIds(rows)
    requires Remove(rows, user, itemId).Success?
    ensures row in Remove(rows, user, itemId).value <==> row in rows && row.id != itemId
  {
    var i := FindOwned(rows, user, itemId).value;
    var r := rows[..i] + rows[i + 1..];
    if row in r {
      var k :| 0 <= k < |r| && r[k] == row;
      if k < i { assert rows[k] == row; } else { assert rows[k + 1] == row; }
    }
    if row in rows && row.id != itemId {
      var k :| 0 <= k < |rows| && rows[k] == row;
      if k < i { assert r[k] == row; } else { assert r[k - 1] == row; }
    }
  }

  /** `remove` shortens the table by one row and keeps ids unique. */
  lemma RemoveExactlyOne(rows: seq<CartRow>, user: UserId, itemId: nat)
    requires UniqueIds(rows)
    requires Remove(rows, user, itemId).Success?
    ensures var r := Remove(rows, user, itemId).value;
      |r| == |rows| - 1 && UniqueIds(r)
  {
    var i := FindOwned(rows, user, itemId).value;
    var r := rows[..i] + rows[i + 1..];
    forall a, b | 0 <= a < b < |r| ensures r[a].id != r[b].id {
      var a' := if a < i then a else a + 1;
      var b' := if b < i then b else b + 1;
      assert r[a] == rows[a'] && r[b] == rows[b'];
    }
  }
}

=== FILE: catalogue_filter.dfy ===
/**
  The product-list filter (resources/js/composables/useFilter.js). The page's
  current filter is copied, one key is set or removed, and the result becomes
  the query of the next product-list visit. Choosing a category also moves
  the highlighted category tab.
*/
module CatalogueFilter {
  import opened Wrappers

  /** The values a filter entry or a chosen value can hold. */
  datatype JsValue = JsNull | JsStr(s: string) | JsNum(n: int)

  /** JavaScript truthiness: `null`, `""` and `0` are falsy (unlike PHP, `"0"` is truthy). */
  predicate Truthy(v: JsValue) {
    match v
    case JsNull => false
    case JsStr(s) => s != ""
    case JsNum(n) => n != 0
  }

  type Params = map<string, JsValue>

  const CategoryKey := "category"
  const SearchKey := "search"
  const AllCategories := JsStr("all")

  /** What one call produces: the query for the next visit and the highlighted category tab. */
  datatype Outcome = Outcome(params: Params, activeCategory: JsValue)

  /** `filter?.category || 'all'`: the tab highlighted when the page loads. */
  function InitialCategory(filter: Option<Params>): (r: JsValue)
    ensures Truthy(r)
    ensures filter.Some? && CategoryKey in filter.value && Truthy(filter.value[CategoryKey]) ==> r == filter.value[CategoryKey]
    ensures r != AllCategories ==> filter.Some? && CategoryKey in filter.value && r == filter.value[CategoryKey]
  {
    if filter.Some? && CategoryKey in filter.value && Truthy(filter.value[CategoryKey])
    then filter.value[CategoryKey] else AllCategories
  }

  /** `params[key] || delete params[key]`: drop the entry when it is missing or falsy. */
  function DropFalsy(p: Params, key: string): (r: Params)
    ensures key in r <==> key in p && Truthy(p[key])
    ensures forall k :: k in r ==> k in p && r[k] == p[k]
    ensures forall k :: k != key && k in p ==> k in r
  {
    if key in p && Truthy(p[key]) then p else p - {key}
  }

  /** `normalFilter(key, value)` against the page's current filter (`null` reads as `{}`). */
  function NormalFilter(filter: Option<Params>, activeCategory: JsValue, key: string, value: JsValue): (r: Outcome)
    // choosing a category
    ensures key == CategoryKey ==>
      && CategoryKey in r.params && r.params[CategoryKey] == value
      && (SearchKey in r.params <==> filter.Some? && SearchKey in filter.value && Truthy(filter.value[SearchKey]))
      && (SearchKey in r.params ==> filter.Some? && r.params[SearchKey] == filter.value[SearchKey])
      && r.activeCategory == (if Truthy(value) then value else AllCategories)
    // any other key
    ensures key != CategoryKey ==>
      && (key in r.params <==> Truthy(value))
      && (key in r.params ==> r.params[key] == value)
      && (CategoryKey in r.params <==> filter.Some? && CategoryKey in filter.value && Truthy(filter.value[CategoryKey]))
      && r.activeCategory == activeCategory
    // nothing else changes
    ensures forall k :: k != key && k != CategoryKey && k != SearchKey ==>
      (k in r.params <==> filter.Some? && k in filter.value)
      && (k in r.params ==> r.params[k] == filter.value[k])
    ensures key != CategoryKey && key != SearchKey && SearchKey in r.params ==>
      filter.Some? && SearchKey in filter.value && r.params[SearchKey] == filter.value[SearchKey]
    ensures key != CategoryKey && key != SearchKey && filter.Some? && SearchKey in filter.value ==> SearchKey in r.params
    ensures key != CategoryKey && CategoryKey in r.params ==>
      filter.Some? && r.params[CategoryKey] == filter.value[CategoryKey]
  {
    var params := if filter.Some? then filter.value else map[];
    if key == CategoryKey then
      var next := if Truthy(value) then value else AllCategories;
      Outcome(DropFalsy(params[key := value], SearchKey), next)
    else
      var updated := if Truthy(value) then params[key := value] else params - {key};
      Outcome(DropFalsy(updated, CategoryKey), activeCategory)
  }

  /**
    Applying the same choice to its own output query changes nothing.
  */
  lemma NormalFilterIdempotent(filter: Option<Params>, activeCategory: JsValue, key: string, value: JsValue)
    ensures var r := NormalFilter(filter, activeCategory, key, value);
      NormalFilter(Some(r.params), r.activeCategory, key, value) == r
  {
    var r := NormalFilter(filter, activeCategory, key, value);
    var r2 := NormalFilter(Some(r.params), r.activeCategory, key, value);
    assert r2.params.Keys == r.params.Keys;
  }

  /** Two searches or other non-category keys can be chosen in either order. */
  lemma NonCategoryKeysCommute(filter: Option<Params>, active: JsValue, k1: string, v1: JsValue, k2: string, v2: JsValue)
    requires k1 != CategoryKey && k2 != CategoryKey && k1 != k2
    ensures var a := NormalFilter(filter, active, k1, v1);
      var b := NormalFilter(filter, active, k2, v2);
      NormalFilter(Some(a.params), a.activeCategory, k2, v2) == NormalFilter(Some(b.params), b.activeCategory, k1, v1)
  {
    var a := NormalFilter(filter, active, k1, v1);
    var b := NormalFilter(filter, active, k2, v2);
    var ab := NormalFilter(Some(a.params), a.activeCategory, k2, v2);
    var ba := NormalFilter(Some(b.params), b.activeCategory, k1, v1);
    forall k ensures (k in ab.params <==> k in ba.params) && (k in ab.params ==> ab.params[k] == ba.params[k]) {
      // one case per kind of key: each chosen key, the category, the search, any other
      if k == k1 {
      } else if k == k2 {
      } else if k == CategoryKey {
      } else if k == SearchKey {
      }
    }
    assert ab.params == ba.params;
  }

  /**
    After any non-category choice the query carries no falsy category and no
    falsy value for the chosen key; a category choice, in contrast, keeps the
    chosen value even when it is empty.
  */
  lemma NoFalsyAfterOtherKey(filter: Option<Params>, active: JsValue, key: string, value: JsValue)
    requires key != CategoryKey
    ensures var r := NormalFilter(filter, active, key, value);
      (key in r.params ==> Truthy(r.params[key])) && (CategoryKey in r.params ==> Truthy(r.params[CategoryKey]))
  {
  }

  /** Clearing the category keeps an empty `category` entry and highlights the "all" tab. */
  lemma ClearingCategory(filter: Option<Params>, active: JsValue)
    ensures var r := NormalFilter(filter, active, CategoryKey, JsStr(""));
      r.params[CategoryKey] == JsStr("") && r.activeCategory == AllCategories
  {
  }
}

=== FILE: flash_session.dfy ===
/**
  The request session with Laravel's flash data, as the password-reset
  controllers use it. A flashed key lives through the next request and is
  dropped at the end of it unless that request keeps it again.

  `newFlash` holds the keys flashed during the current request (`_flash.new`),
  `oldFlash` the keys flashed by the previous one (`_flash.old`).
*/
module FlashSession {
  import Php

  /** The values the controllers store: `null`, strings and Unix timestamps. */
  datatype Value = Null | Text(text: string) | Number(number: int)

  datatype Session = Session(data: map<string, Value>, newFlash: set<string>, oldFlash: set<string>)

  const Empty := Session(map[], {}, {})

  /** `session($key)`: a missing key reads as `null`. */
  function Get(s: Session, key: string): Value {
    if key in s.data then s.data[key] else Null
  }

  /** Every key outside `keys` reads the same in `r` as in `s` and keeps its place in both flash sets. */
  ghost predicate SameOutside(s: Session, r: Session, keys: set<string>) {
    forall k :: k !in keys ==>
      && Get(r, k) == Get(s, k)
      && (k in r.newFlash <==> k in s.newFlash)
      && (k in r.oldFlash <==> k in s.oldFlash)
  }

  /** PHP truthiness of a session value, as `if ($email)` tests it. */
  predicate Truthy(v: Value) {
    match v
    case Null => false
    case Text(t) => Php.StringTruthy(t)
    case Number(n) => n != 0
  }

  /** `flash($key, $value)`: store it, and schedule it for the next request only. */
  function Flash(s: Session, key: string, v: Value): (r: Session)
    ensures Get(r, key) == v && key in r.newFlash && key !in r.oldFlash
    ensures forall k :: k != key ==> Get(r, k) == Get(s, k)
    // other keys keep their place in the flash lifecycle
    ensures forall k :: k != key ==> (k in r.newFlash <==> k in s.newFlash) && (k in r.oldFlash <==> k in s.oldFlash)
  {
    Session(s.data[key := v], s.newFlash + {key}, s.oldFlash - {key})
  }

  /** `keep($keys)`: carry last request's flash data through one more request. */
  function Keep(s: Session, keys: set<string>): (r: Session)
    ensures r.data == s.data
    ensures keys <= r.newFlash && r.oldFlash !! keys
    ensures forall k :: k !in keys ==> (k in r.newFlash <==> k in s.newFlash) && (k in r.oldFlash <==> k in s.oldFlash)
  {
    Session(s.data, s.newFlash + keys, s.oldFlash - keys)
  }

  /** `forget($keys)`. */
  function Forget(s: Session, keys: set<string>): (r: Session)
    ensures forall k :: k in keys ==> Get(r, k) == Null
    ensures forall k :: k !in keys ==> Get(r, k) == Get(s, k)
    // the flash lists are left alone: a forgotten key that was flashed is simply absent when aged
    ensures r.newFlash == s.newFlash && r.oldFlash == s.oldFlash
  {
    Session(s.data - keys, s.newFlash, s.oldFlash)
  }

  /** End of request (`ageFlashData`): drop last request's flash data and age this request's. */
  function EndRequest(s: Session): (r: Session)
    ensures forall k :: k in s.oldFlash ==> Get(r, k) == Null
    ensures forall k :: k !in s.oldFlash ==> Get(r, k) == Get(s, k)
    ensures r.oldFlash == s.newFlash && r.newFlash == {}
  {
    Session(s.data - s.oldFlash, {}, s.newFlash)
  }

  /** A value flashed in one request can still be read in the next. */
  lemma FlashLivesOneRequest(s: Session, key: string, v: Value)
    ensures Get(EndRequest(Flash(s, key, v)), key) == v
  {
  }

  /** ... and is gone after the one after that, unless kept. */
  lemma FlashExpiresAfterTwo(s: Session, key: string, v: Value)
    ensures Get(EndRequest(EndRequest(Flash(s, key, v))), key) == Null
  {
  }

  /** Keeping a key during a request lets it survive that request's end. */
  lemma KeepExtendsLife(s: Session, keys: set<string>, key: string)
    requires key in keys
    ensures Get(EndRequest(Keep(s, keys)), key) == Get(s, key)
  {
  }
}

=== FILE: gates.dfy ===
/** The four role gates defined in `AppServiceProvider::boot` (app/Providers/AppServiceProvider.php). */
module Gates {

  datatype Gate = AccessStaffManagement | AccessSuperAdmin | AccessStoreManager | AccessCustomerService

  /** The roles any gate admits; every other role string is an ordinary account. */
  const StaffRoles: set<string> := {"super_admin", "store_manager", "customer_service"}

  /** Whether a user with `role` passes `gate` (strict string comparison). */
  function Allows(gate: Gate, role: string): (ok: bool)
    ensures ok ==> role in StaffRoles
    ensures role == "super_admin" ==> ok
  {
    match gate
    case AccessStaffManagement => role == "super_admin" || role == "store_manager" || role == "customer_service"
    case AccessSuperAdmin => role == "super_admin"
    case AccessStoreManager => role == "store_manager" || role == "super_admin"
    case AccessCustomerService => role == "customer_service" || role == "super_admin" || role == "store_manager"
  }

  /** The staff-management and customer-service gates admit the same roles. */
  lemma StaffEqualsCustomerService(role: string)
    ensures Allows(AccessStaffManagement, role) == Allows(AccessCustomerService, role)
  {
  }

  /** The gates form a chain: super-admin implies store-manager implies customer-service. */
  lemma GateChain(role: string)
    ensures Allows(AccessSuperAdmin, role) ==> Allows(AccessStoreManager, role)
    ensures Allows(AccessStoreManager, role) ==> Allows(AccessCustomerService, role)
  {
  }

  /** `customer_service` passes exactly the staff-management and customer-service gates. */
  lemma CustomerServiceGates(gate: Gate)
    ensures Allows(gate, "customer_service") <==> gate == AccessStaffManagement || gate == AccessCustomerService
  {
  }

  /** `store_manager` passes every gate but the super-admin one. */
  lemma StoreManagerGates(gate: Gate)
    ensures Allows(gate, "store_manager") <==> gate != AccessSuperAdmin
  {
  }

  /** A role outside the three staff roles, such as `admin` or `user`, passes no gate. */
  lemma OtherRolesPassNothing(gate: Gate, role: string)
    requires role != "super_admin" && role != "store_manager" && role != "customer_service"
    ensures !Allows(gate, role)
  {
  }
}

=== FILE: name_format.dfy ===
/**
  `generateName` (resources/js/composables/useGenerateName.js): trim the
  name, lower-case it, split it on single spaces, upper-case the first
  character of every piece and join the pieces with single spaces. A piece
  that is empty (from an empty name or two spaces in a row) has no first
  character, and the call throws; that outcome is `None`.

  Case mapping is modelled for ASCII letters only; every other character is
  left as it is.
*/
module NameFormat {
  import opened Wrappers

  /** The characters `String.prototype.trim` strips: white space and line terminators. */
  predicate IsWhitespace(c: char) {
    var n := c as int;
    || n == 9 || n == 10 || n == 11 || n == 12 || n == 13 || n == 32
    || n == 0xA0 || n == 0x1680 || (0x2000 <= n <= 0x200A) || n == 0x2028 || n == 0x2029
    || n == 0x202F || n == 0x205F || n == 0x3000 || n == 0xFEFF
  }

  function Upper(c: char): char {
    if 'a' <= c <= 'z' then (c as int - 32) as char else c
  }

  function Lower(c: char): char {
    if 'A' <= c <= 'Z' then (c as int + 32) as char else c
  }

  /** The index of the first non-white-space character at or after `i`, or `|s|`. */
  function StartOf(s: string, i: nat): (n: nat)
    requires i <= |s|
    ensures i <= n <= |s|
    ensures forall k :: i <= k < n ==> IsWhitespace(s[k])
    ensures n < |s| ==> !IsWhitespace(s[n])
    decreases |s| - i
  {
    if i < |s| && IsWhitespace(s[i]) then StartOf(s, i + 1) else i
  }

  /** The index just past the last non-white-space character in `s[lo..j]`, or `lo`. */
  function EndOf(s: string, lo: nat, j: nat): (n: nat)
    requires lo <= j <= |s|
    ensures lo <= n <= j
    ensures forall k :: n <= k < j ==> IsWhitespace(s[k])
    ensures n > lo ==> !IsWhitespace(s[n - 1])
    decreases j
  {
    if j > lo && IsWhitespace(s[j - 1]) then EndOf(s, lo, j - 1) else j
  }

  /** `r` is `s` less `i` leading and some trailing white-space characters. */
  predicate TrimmedAt(s: string, r: string, i: int) {
    && 0 <= i <= |s| - |r| && r == s[i..i + |r|]
    && (forall k :: 0 <= k < i ==> IsWhitespace(s[k]))
    && (forall k :: i + |r| <= k < |s| ==> IsWhitespace(s[k]))
  }

  /** `name.trim()`: the slice of `name` between its leading and trailing white space. */
  function Trim(s: string): (r: string)
    ensures |r| > 0 ==> !IsWhitespace(r[0]) && !IsWhitespace(r[|r| - 1])
    ensures exists i :: TrimmedAt(s, r, i)
  {
    var a := StartOf(s, 0);
    var b := EndOf(s, a, |s|);
    assert TrimmedAt(s, s[a..b], a);
    s[a..b]
  }

  /** A string with no white space at either end is its own trim. */
  lemma TrimFixed(s: string)
    requires |s| > 0 ==> !IsWhitespace(s[0]) && !IsWhitespace(s[|s| - 1])
    ensures Trim(s) == s
  {
    assert s[0..|s|] == s;
  }

  /** `.toLowerCase()`. */
  function LowerAll(s: string): (r: string)
    ensures |r| == |s| && forall i :: 0 <= i < |s| ==> r[i] == Lower(s[i])
  {
    seq(|s|, i requires 0 <= i < |s| => Lower(s[i]))
  }

  /** `.split(' ')`: the pieces between single spaces; an empty string gives one empty piece. */
  function Split(s: string): (r: seq<string>)
    ensures |r| >= 1
    ensures forall k :: 0 <= k < |r| ==> ' ' !in r[k]
    ensures forall k, c :: 0 <= k < |r| && c in r[k] ==> c in s
    decreases |s|
  {
    if |s| == 0 then [""]
    else
      var rest := Split(s[1..]);
      assert forall c :: c in s[1..] ==> c in s;
      if s[0] == ' ' then [""] + rest else [[s[0]] + rest[0]] + rest[1..]
  }

  /** `.join(' ')`. */
  function Join(ws: seq<string>): string {
    if |ws| == 0 then "" else if |ws| == 1 then ws[0] else ws[0] + " " + Join(ws[1..])
  }

  /** Joining the pieces of a split gives the string back. */
  lemma {:induction false} JoinSplit(s: string)
    ensures Join(Split(s)) == s
    decreases |s|
  {
    if |s| > 0 {
      JoinSplit(s[1..]);
      var rest := Split(s[1..]);
      if s[0] == ' ' {
        assert ([""] + rest)[1..] == rest;
      } else if |rest| > 1 {
        assert ([[s[0]] + rest[0]] + rest[1..])[1..] == rest[1..];
      }
    }
  }

  /** Splitting a word without spaces followed by a space splits off exactly that word. */
  lemma {:induction false} SplitAfterWord(w: string, t: string)
    requires ' ' !in w
    ensures Split(w + " " + t) == [w] + Split(t)
    decreases |w|
  {
    if |w| == 0 {
      assert w + " " + t == [' '] + t;
      assert (w + " " + t)[1..] == t;
    } else {
      assert (w + " " + t)[1..] == w[1..] + " " + t;
      assert w[1..] == w[1..];
      assert ' ' !in w[1..] by {
        forall c | c in w[1..] ensures c != ' ' {
          assert c in w;
        }
      }
      SplitAfterWord(w[1..], t);
      assert [w[0]] + w[1..] == w;
    }
  }

  lemma {:induction false} SplitWord(w: string)
    requires ' ' !in w
    ensures Split(w) == [w]
    decreases |w|
  {
    if |w| > 0 {
      assert ' ' !in w[1..] by {
        forall c | c in w[1..] ensures c != ' ' {
          assert c in w;
        }
      }
      SplitWord(w[1..]);
      assert [w[0]] + w[1..] == w;
    }
  }

  /** Splitting a join of space-free pieces gives the pieces back. */
  lemma {:induction false} SplitJoin(ws: seq<string>)
    requires |ws| >= 1
    requires forall k :: 0 <= k < |ws| ==> ' ' !in ws[k]
    ensures Split(Join(ws)) == ws
    decreases |ws|
  {
    if |ws| == 1 {
      SplitWord(ws[0]);
    } else {
      SplitJoin(ws[1..]);
      SplitAfterWord(ws[0], Join(ws[1..]));
    }
  }

  /** `word[0].toUpperCase() + word.slice(1)` over all pieces; `None` when a piece is empty. */
  function CapitalizeWords(words: seq<string>): (r: Option<seq<string>>)
    ensures r.None? <==> exists k :: 0 <= k < |words| && words[k] == ""
    ensures r.Some? ==> (|r.value| == |words|
      && forall k :: 0 <= k < |words| ==> r.value[k] == [Upper(words[k][0])] + words[k][1..])
    decreases |words|
  {
    if |words| == 0 then Some([])
    else if |words[0]| == 0 then None
    else
      match CapitalizeWords(words[1..])
      case None => None
      case Some(rest) => Some([[Upper(words[0][0])] + words[0][1..]] + rest)
  }

  /**
    `generateName(name)`. It throws (`None`) exactly when the trimmed name is
    empty or has two spaces in a row, since those give `split(' ')` an empty
    piece. Otherwise it returns the title case of the trimmed name, with the
    same length and the same number of words.
  */
  function GenerateName(name: string): (r: Option<string>)
    ensures r.None? <==> Trim(name) == "" || HasDoubleSpace(Trim(name))
    ensures r.Some? ==>
      && r.value == TitleCase(Trim(name))
      && |r.value| == |Trim(name)|
      && |Split(r.value)| == |Split(Trim(name))|
  {
    var t := Trim(name);
    var l := LowerAll(t);
    var words := Split(l);
    EmptyPieces(l);
    BadSpaceLower(t);
    assert |t| > 0 ==> t[0] != ' ' && t[|t| - 1] != ' ' && l[0] == Lower(t[0]);
    match CapitalizeWords(words)
    case None => None
    case Some(caps) =>
      CapitalizeJoin(words);
      JoinSplit(l);
      SplitJoin(caps);
      assert forall i :: 0 <= i < |t| ==> (l[i] == ' ' <==> t[i] == ' ');
      SplitSameSpaces(t, l);
      Some(Join(caps))
  }

  // ---------------------------------------------------------------------
  // A character-wise reference definition
  // ---------------------------------------------------------------------

  /** Upper-case the first character and every character after a space; keep the rest. */
  function CapFrom(s: string, atStart: bool): (r: string)
    ensures |r| == |s|
    ensures forall i :: 0 <= i < |s| ==> r[i] == s[i] || r[i] == Upper(s[i])
    decreases |s|
  {
    if |s| == 0 then ""
    else [if atStart then Upper(s[0]) else s[0]] + CapFrom(s[1..], s[0] == ' ')
  }

  /** Title case: lower-case everything, then capitalise each word start. */
  function TitleCase(s: string): string {
    CapFrom(LowerAll(s), true)
  }

  lemma {:induction false} CapFromAppend(a: string, b: string, atStart: bool)
    ensures CapFrom(a + b, atStart) == CapFrom(a, atStart) + CapFrom(b, if |a| == 0 then atStart else a[|a| - 1] == ' ')
    decreases |a|
  {
    if |a| == 0 {
      assert a + b == b;
    } else {
      assert (a + b)[1..] == a[1..] + b;
      CapFromAppend(a[1..], b, a[0] == ' ');
    }
  }

  lemma {:induction false} CapFromWord(w: string)
    requires ' ' !in w
    ensures CapFrom(w, false) == w
    decreases |w|
  {
    if |w| > 0 {
      assert ' ' !in w[1..] by {
        forall c | c in w[1..] ensures c != ' ' {
          assert c in w;
        }
      }
      CapFromWord(w[1..]);
      assert [w[0]] + w[1..] == w;
    }
  }

  /** Capitalising a single space-free word upper-cases its first character only. */
  lemma CapitalizeWord(w: string)
    requires ' ' !in w && w != ""
    ensures CapFrom(w, true) == [Upper(w[0])] + w[1..]
  {
    assert ' ' !in w[1..] by {
      forall c | c in w[1..] ensures c != ' ' {
        assert c in w;
      }
    }
    CapFromWord(w[1..]);
  }

  /** Capitalising `w + " " + rest` capitalises `w` and starts afresh after the space. */
  lemma CapitalizeFirstWord(w: string, rest: string)
    requires ' ' !in w && w != ""
    ensures CapFrom(w + " " + rest, true) == ([Upper(w[0])] + w[1..]) + " " + CapFrom(rest, true)
  {
    CapitalizeWord(w);
    CapFromAppend(w, " " + rest, true);
    assert w + " " + rest == w + (" " + rest);
    assert (" " + rest)[1..] == rest;
    assert CapFrom(" " + rest, false) == " " + CapFrom(rest, true);
  }

  /** Capitalising each piece and joining is the character-wise capitalisation of the joined string. */
  lemma {:induction false} CapitalizeJoin(words: seq<string>)
    requires forall k :: 0 <= k < |words| ==> ' ' !in words[k] && words[k] != ""
    requires |words| >= 1
    ensures CapitalizeWords(words).Some?
    ensures Join(CapitalizeWords(words).value) == CapFrom(Join(words), true)
    decreases |words|
  {
    var w := words[0];
    if |words| == 1 {
      CapitalizeWord(w);
    } else {
      CapitalizeJoin(words[1..]);
      var caps := CapitalizeWords(words).value;
      assert caps[1..] == CapitalizeWords(words[1..]).value;
      CapitalizeFirstWord(w, Join(words[1..]));
    }
  }

  /** Two spaces in a row. */
  predicate HasDoubleSpace(s: string) {
    exists i :: 0 <= i < |s| - 1 && s[i] == ' ' && s[i + 1] == ' '
  }

  /** A space that is last or followed by another space. */
  predicate BadSpace(s: string) {
    exists i :: 0 <= i < |s| && s[i] == ' ' && (i + 1 == |s| || s[i + 1] == ' ')
  }

  /** Where the empty pieces of a split come from. */
  lemma {:induction false} EmptyPieces(s: string)
    ensures Split(s)[0] == "" <==> (|s| == 0 || s[0] == ' ')
    ensures LaterPieceEmpty(Split(s)) <==> BadSpace(s)
    decreases |s|
  {
    if |s| > 0 {
      EmptyPieces(s[1..]);
      if s[0] == ' ' {
        EmptyPiecesAfterSpace(s);
      } else {
        EmptyPiecesAfterChar(s);
      }
    }
  }

  /** Some piece after the first is empty. */
  predicate LaterPieceEmpty(ws: seq<string>) {
    exists k :: 1 <= k < |ws| && ws[k] == ""
  }

  lemma EmptyPiecesAfterSpace(s: string)
    requires |s| > 0 && s[0] == ' '
    requires Split(s[1..])[0] == "" <==> (|s[1..]| == 0 || s[1..][0] == ' ')
    requires LaterPieceEmpty(Split(s[1..])) <==> BadSpace(s[1..])
    ensures LaterPieceEmpty(Split(s)) <==> BadSpace(s)
  {
    var tail := s[1..];
    var rest := Split(tail);
    var r := Split(s);
    assert r == [""] + rest;
    assert |r| == |rest| + 1 && forall k :: 1 <= k < |r| ==> r[k] == rest[k - 1];
    if BadSpace(s) {
      var i :| 0 <= i < |s| && s[i] == ' ' && (i + 1 == |s| || s[i + 1] == ' ');
      if i == 0 {
        assert rest[0] == "";
        assert r[1] == "";
      } else {
        assert tail[i - 1] == ' ' && (i == |tail| || tail[i] == ' ');
        assert BadSpace(tail);
        var k :| 1 <= k < |rest| && rest[k] == "";
        assert r[k + 1] == "";
      }
      assert LaterPieceEmpty(r);
    }
    if LaterPieceEmpty(r) {
      var k :| 1 <= k < |r| && r[k] == "";
      if k == 1 {
        assert rest[0] == "";
        assert s[0] == ' ' && (1 == |s| || s[1] == ' ');
      } else {
        assert rest[k - 1] == "";
        assert LaterPieceEmpty(rest);
        var i :| 0 <= i < |tail| && tail[i] == ' ' && (i + 1 == |tail| || tail[i + 1] == ' ');
        assert s[i + 1] == ' ' && (i + 2 == |s| || s[i + 2] == ' ');
      }
      assert BadSpace(s);
    }
  }

  /** After a non-space first character the later pieces are those of the tail. */
  lemma SplitAfterChar(s: string)
    requires |s| > 0 && s[0] != ' '
    ensures |Split(s)| == |Split(s[1..])|
    ensures forall k :: 1 <= k < |Split(s)| ==> Split(s)[k] == Split(s[1..])[k]
  {
  }

  lemma EmptyPiecesAfterChar(s: string)
    requires |s| > 0 && s[0] != ' '
    requires LaterPieceEmpty(Split(s[1..])) <==> BadSpace(s[1..])
    ensures LaterPieceEmpty(Split(s)) <==> BadSpace(s)
  {
    var tail := s[1..];
    SplitAfterChar(s);
    if BadSpace(s) {
      var i :| 0 <= i < |s| && s[i] == ' ' && (i + 1 == |s| || s[i + 1] == ' ');
      assert tail[i - 1] == ' ' && (i == |tail| || tail[i] == ' ');
      assert BadSpace(tail);
      var k :| 1 <= k < |Split(tail)| && Split(tail)[k] == "";
      assert Split(s)[k] == "";
    }
    if LaterPieceEmpty(Split(s)) {
      var k :| 1 <= k < |Split(s)| && Split(s)[k] == "";
      assert Split(tail)[k] == "";
      var i :| 0 <= i < |tail| && tail[i] == ' ' && (i + 1 == |tail| || tail[i + 1] == ' ');
      assert s[i + 1] == ' ' && (i + 2 == |s| || s[i + 2] == ' ');
    }
  }

  // ---------------------------------------------------------------------
  // Properties of generateName
  // ---------------------------------------------------------------------

  /** In a string with no space at either end, a bad space is a double space; lower-casing moves no space. */
  lemma BadSpaceLower(t: string)
    requires |t| > 0 ==> t[0] != ' ' && t[|t| - 1] != ' '
    ensures BadSpace(LowerAll(t)) <==> HasDoubleSpace(t)
  {
    var l := LowerAll(t);
    assert forall i :: 0 <= i < |t| ==> (l[i] == ' ' <==> t[i] == ' ');
    if BadSpace(l) {
      var i :| 0 <= i < |l| && l[i] == ' ' && (i + 1 == |l| || l[i + 1] == ' ');
      assert i + 1 < |t| && t[i] == ' ' && t[i + 1] == ' ';
    }
    if HasDoubleSpace(t) {
      var i :| 0 <= i < |t| - 1 && t[i] == ' ' && t[i + 1] == ' ';
      assert l[i] == ' ' && l[i + 1] == ' ';
    }
  }

  /** Strings with spaces in the same places split into the same number of pieces. */
  lemma {:induction false} SplitSameSpaces(a: string, b: string)
    requires |a| == |b|
    requires forall i :: 0 <= i < |a| ==> (a[i] == ' ' <==> b[i] == ' ')
    ensures |Split(a)| == |Split(b)|
    decreases |a|
  {
    if |a| > 0 {
      SplitSameSpaces(a[1..], b[1..]);
    }
  }

  /** Lower-casing the title case gives the lower-cased string. */
  lemma TitleCaseLower(t: string)
    ensures LowerAll(TitleCase(t)) == LowerAll(t)
  {
    var l := LowerAll(t);
    var r := TitleCase(t);
    forall i | 0 <= i < |t| ensures Lower(r[i]) == l[i] {
      assert r[i] == l[i] || r[i] == Upper(l[i]);
    }
  }

  /** Title case puts white space exactly where the string had it. */
  lemma TitleCaseWhitespace(t: string)
    ensures |TitleCase(t)| == |t|
    ensures forall i :: 0 <= i < |t| ==> (IsWhitespace(TitleCase(t)[i]) <==> IsWhitespace(t[i]))
  {
    var l := LowerAll(t);
    var r := TitleCase(t);
    forall i | 0 <= i < |t| ensures IsWhitespace(r[i]) <==> IsWhitespace(t[i]) {
      assert r[i] == l[i] || r[i] == Upper(l[i]);
      assert l[i] == Lower(t[i]);
    }
  }

  /** Formatting a formatted name changes nothing. */
  lemma GenerateNameIdempotent(name: string)
    requires GenerateName(name).Some?
    ensures GenerateName(GenerateName(name).value) == GenerateName(name)
  {
    var t := Trim(name);
    var r := GenerateName(name).value;
    TitleCaseWhitespace(t);
    TrimFixed(r);
    TitleCaseLower(t);
    assert LowerAll(Trim(r)) == LowerAll(t);
  }

  /** Every word of the result starts with an upper-cased character and continues in lower case. */
  lemma WordsCapitalized(name: string)
    requires GenerateName(name).Some?
    ensures forall k :: 0 <= k < |Split(GenerateName(name).value)| ==>
      var w := Split(GenerateName(name).value)[k];
      |w| > 0 && w[0] == Upper(w[0]) && forall j :: 1 <= j < |w| ==> w[j] == Lower(w[j])
  {
    var l := LowerAll(Trim(name));
    var words := Split(l);
    var caps := CapitalizeWords(words).value;
    SplitJoin(caps);
    assert Split(GenerateName(name).value) == caps;
    forall k | 0 <= k < |caps|
      ensures |caps[k]| > 0 && caps[k][0] == Upper(caps[k][0])
      ensures forall j :: 1 <= j < |caps[k]| ==> caps[k][j] == Lower(caps[k][j])
    {
      LoweredPiece(l, words, k);
    }
  }

  /** Every character of a piece of a lower-cased string is already lower case. */
  lemma LoweredPiece(l: string, words: seq<string>, k: int)
    requires forall i :: 0 <= i < |l| ==> Lower(l[i]) == l[i]
    requires words == Split(l) && 0 <= k < |words|
    ensures forall j :: 0 <= j < |words[k]| ==> Lower(words[k][j]) == words[k][j]
  {
    forall j | 0 <= j < |words[k]| ensures Lower(words[k][j]) == words[k][j] {
      assert words[k][j] in words[k];
      assert words[k][j] in l;
      var i :| 0 <= i < |l| && l[i] == words[k][j];
    }
  }
}

=== FILE: order_model.dfy ===
/**
  The `Order` model: the order record, the order-number generator and the
  status query scope (app/Models/Order.php).

  An order number is `ORD-` followed by today's date as `Ymd`, a dash and the
  upper-case hex spelling of two random bytes. The random bytes are not drawn
  here: the generator receives the sequence of byte pairs that successive
  attempts would draw, and the length of that sequence bounds the retries.
*/
module OrderModel {
  import opened Wrappers
  import Php

  /** A calendar date as `now()->format('Ymd')` prints it. */
  datatype Date = Date(year: nat, month: nat, day: nat)

  predicate ValidDate(d: Date) {
    d.year <= 9999 && 1 <= d.month <= 12 && 1 <= d.day <= 31
  }

  type Byte = b: nat | b < 256

  /** One draw of `random_bytes(2)`. */
  datatype Sample = Sample(hi: Byte, lo: Byte)

  /** A row of the `orders` table; amounts are in cents. */
  datatype Order = Order(
    id: nat,
    orderNumber: string,
    userId: nat,
    totalAmount: int,
    totalItems: int,
    address: map<string, string>,
    paymentMethod: string,
    status: string)

  const Prefix: string := "ORD"
  const NumberLength: nat := 17

  function DigitChar(n: nat): char
    requires n < 10
  {
    ('0' as int + n) as char
  }

  /** One hexadecimal digit as `strtoupper(bin2hex(...))` prints it. */
  function HexChar(n: nat): char
    requires n < 16
  {
    if n < 10 then DigitChar(n) else ('A' as int + (n - 10)) as char
  }

  predicate IsDigit(c: char) {
    '0' <= c <= '9'
  }

  predicate IsUpperHex(c: char) {
    IsDigit(c) || 'A' <= c <= 'F'
  }

  function DigitValue(c: char): nat
    requires IsDigit(c)
  {
    c as int - '0' as int
  }

  function HexValue(c: char): nat
    requires IsUpperHex(c)
  {
    if IsDigit(c) then DigitValue(c) else c as int - 'A' as int + 10
  }

  /** The date formatted as `Ymd`: a four-digit year, then two-digit month and day. */
  function Ymd(d: Date): (s: string)
    requires ValidDate(d)
    ensures |s| == 8
    ensures forall i :: 0 <= i < |s| ==> IsDigit(s[i])
  {
    var tens := d.year / 10;
    var hundreds := tens / 10;
    [ DigitChar(hundreds / 10), DigitChar(hundreds % 10),
      DigitChar(tens % 10), DigitChar(d.year % 10),
      DigitChar(d.month / 10), DigitChar(d.month % 10),
      DigitChar(d.day / 10), DigitChar(d.day % 10) ]
  }

  /** `strtoupper(bin2hex($bytes))`: high nibble first, byte by byte. */
  function UpperHex(x: Sample): (s: string)
    ensures |s| == 4
    ensures forall i :: 0 <= i < |s| ==> IsUpperHex(s[i])
  {
    [HexChar(x.hi / 16), HexChar(x.hi % 16), HexChar(x.lo / 16), HexChar(x.lo % 16)]
  }

  /** The candidate number built from the date and one random draw. */
  function Candidate(today: Date, x: Sample): (s: string)
    requires ValidDate(today)
    ensures WellFormedNumber(s)
    ensures s[4..12] == Ymd(today)
    ensures s[13..] == UpperHex(x)
  {
    Prefix + "-" + Ymd(today) + "-" + UpperHex(x)
  }

  /** The shape every generated number has: 17 characters, `ORD-`, eight digits, `-`, four hex digits. */
  predicate WellFormedNumber(s: string) {
    && |s| == NumberLength
    && s[..4] == "ORD-"
    && (forall i :: 4 <= i < 12 ==> IsDigit(s[i]))
    && s[12] == '-'
    && (forall i :: 13 <= i < 17 ==> IsUpperHex(s[i]))
  }

  /** Reads the date and the random bytes back out of a well-formed number. */
  function ParseNumber(s: string): Option<(Date, Sample)> {
    if !WellFormedNumber(s) then None
    else
      var year := DigitValue(s[4]) * 1000 + DigitValue(s[5]) * 100 + DigitValue(s[6]) * 10 + DigitValue(s[7]);
      var month := DigitValue(s[8]) * 10 + DigitValue(s[9]);
      var day := DigitValue(s[10]) * 10 + DigitValue(s[11]);
      var hi := HexValue(s[13]) * 16 + HexValue(s[14]);
      var lo := HexValue(s[15]) * 16 + HexValue(s[16]);
      Some((Date(year, month, day), Sample(hi, lo)))
  }

  lemma DigitRoundTrip(n: nat)
    requires n < 10
    ensures IsDigit(DigitChar(n)) && DigitValue(DigitChar(n)) == n
  {
  }

  lemma HexRoundTrip(n: nat)
    requires n < 16
    ensures IsUpperHex(HexChar(n)) && HexValue(HexChar(n)) == n
  {
  }

  /** The eight `Ymd` digits read back as the date. */
  lemma YmdParses(d: Date)
    requires ValidDate(d)
    ensures var t := Ymd(d);
      && DigitValue(t[0]) * 1000 + DigitValue(t[1]) * 100 + DigitValue(t[2]) * 10 + DigitValue(t[3]) == d.year
      && DigitValue(t[4]) * 10 + DigitValue(t[5]) == d.month
      && DigitValue(t[6]) * 10 + DigitValue(t[7]) == d.day
  {
    var y := d.year;
    var tens := y / 10;
    var hundreds := tens / 10;
    var t := Ymd(d);
    DigitRoundTrip(hundreds / 10);
    DigitRoundTrip(hundreds % 10);
    DigitRoundTrip(tens % 10);
    DigitRoundTrip(y % 10);
    DigitRoundTrip(d.month / 10);
    DigitRoundTrip(d.month % 10);
    DigitRoundTrip(d.day / 10);
    DigitRoundTrip(d.day % 10);
    assert y == tens * 10 + y % 10;
    assert tens == hundreds * 10 + tens % 10;
    assert hundreds == (hundreds / 10) * 10 + hundreds % 10;
  }

  /** The four hex digits read back as the two random bytes. */
  lemma UpperHexParses(x: Sample)
    ensures var t := UpperHex(x);
      HexValue(t[0]) * 16 + HexValue(t[1]) == x.hi && HexValue(t[2]) * 16 + HexValue(t[3]) == x.lo
  {
    HexRoundTrip(x.hi / 16);
    HexRoundTrip(x.hi % 16);
    HexRoundTrip(x.lo / 16);
    HexRoundTrip(x.lo % 16);
  }

  /** Parsing a generated candidate gives back the date and the random draw it was built from. */
  lemma ParseCandidate(today: Date, x: Sample)
    requires ValidDate(today)
    ensures ParseNumber(Candidate(today, x)) == Some((today, x))
  {
    var s := Candidate(today, x);
    var t := Ymd(today);
    var h := UpperHex(x);
    YmdParses(today);
    UpperHexParses(x);
    assert forall i :: 0 <= i < 8 ==> s[4 + i] == t[i];
    assert forall i :: 0 <= i < 4 ==> s[13 + i] == h[i];
  }

  /** Distinct (date, draw) pairs never produce the same order number. */
  lemma CandidateInjective(d1: Date, x1: Sample, d2: Date, x2: Sample)
    requires ValidDate(d1) && ValidDate(d2)
    requires Candidate(d1, x1) == Candidate(d2, x2)
    ensures d1 == d2 && x1 == x2
  {
    ParseCandidate(d1, x1);
    ParseCandidate(d2, x2);
  }

  /** The order numbers already stored in the `orders` table. */
  function NumbersOf(orders: seq<Order>): set<string> {
    set o | o in orders :: o.orderNumber
  }

  /**
    `generateOrderNumber`: try each draw in turn and return the first
    candidate that no stored order uses. `None` means every supplied draw
    collided (the source would keep drawing).
  */
  function GenerateOrderNumber(taken: set<string>, today: Date, draws: seq<Sample>): (r: Option<string>)
    requires ValidDate(today)
    ensures r.Some? ==> r.value !in taken && WellFormedNumber(r.value) && r.value[4..12] == Ymd(today)
    ensures r.Some? ==>
      exists k :: 0 <= k < |draws| && r.value == Candidate(today, draws[k])
        && forall j :: 0 <= j < k ==> Candidate(today, draws[j]) in taken
    ensures r.None? <==> forall k :: 0 <= k < |draws| ==> Candidate(today, draws[k]) in taken
    ensures |draws| > 0 && Candidate(today, draws[0]) !in taken ==> r == Some(Candidate(today, draws[0]))
    decreases |draws|
  {
    if |draws| == 0 then None
    else
      var candidate := Candidate(today, draws[0]);
      if candidate in taken then
        var rest := GenerateOrderNumber(taken, today, draws[1..]);
        assert forall k :: 1 <= k < |draws| ==> draws[k] == draws[1..][k - 1];
        rest
      else Some(candidate)
  }

  /**
    `scopeFilter`: a truthy `status` keeps exactly the orders with that
    status, in their original order; an absent or falsy one keeps them all.
  */
  function ScopeFilter(orders: seq<Order>, status: Option<string>): (r: seq<Order>)
    ensures !Php.OptionTruthy(status) ==> r == orders
    ensures Php.OptionTruthy(status) ==> forall i :: 0 <= i < |r| ==> r[i].status == status.value
    ensures Php.OptionTruthy(status) ==>
      forall o :: multiset(r)[o] == if o.status == status.value then multiset(orders)[o] else 0
  {
    if Php.OptionTruthy(status) then WithStatus(orders, status.value) else orders
  }

  function WithStatus(orders: seq<Order>, status: string): (r: seq<Order>)
    ensures forall i :: 0 <= i < |r| ==> r[i].status == status
    ensures forall o :: multiset(r)[o] == if o.status == status then multiset(orders)[o] else 0
  {
    if |orders| == 0 then []
    else
      var rest := WithStatus(orders[1..], status);
      assert orders == [orders[0]] + orders[1..];
      if orders[0].status == status then [orders[0]] + rest else rest
  }
}

=== FILE: order_placement.dfy ===
/**
  Order placement (`OrderController::store`, app/Http/Controllers/OrderController.php).

  The requested lines are folded over the product table in input order. Each
  line re-reads its product, so a product requested twice sees the stock the
  earlier line left. A line whose product is missing, out of stock or short of
  stock aborts the whole transaction: the shop state comes back unchanged.
  Amounts are integer cents (prices are `decimal(10,2)` columns).
*/
module OrderPlacement {
  import opened Wrappers
  import opened OrderModel
  import Php

  type ProductId = nat

  /** The columns of a `products` row that placement reads or writes. */
  datatype Product = Product(name: string, price: int, stock: int)

  /** One entry of the request's `items` array. Quantities are not validated by the action. */
  datatype LineRequest = LineRequest(productId: ProductId, quantity: int)

  /** A row of `order_items`: a snapshot of the product's name and price at purchase time. */
  datatype OrderItem = OrderItem(orderId: nat, productName: string, productPrice: int, quantity: int)

  /** The tables placement touches, plus the next auto-increment id of `orders`. */
  datatype Shop = Shop(
    products: map<ProductId, Product>,
    orders: seq<Order>,
    orderItems: seq<OrderItem>,
    nextOrderId: nat)

  datatype OrderError =
    | ProductMissing(productId: ProductId)
    | OutOfStock(productName: string)
    | StockNotEnough(productName: string)
    | NumberExhausted
    | Invalid(fields: seq<string>)

  /**
    The `error` flash message the catch block sends back. Only the per-line
    errors raised inside the transaction reach it: a validation failure is
    thrown before the `try` and lands in the error bag (`ErrorBag`), and
    `NumberExhausted` has no counterpart in the source, which redraws until it
    finds an unused number.
  */
  function Message(e: OrderError): Option<string> {
    match e
    case ProductMissing(_) => Some("Attempt to read property \"stock\" on null")
    case OutOfStock(name) => Some("Product " + name + " is out of stock")
    case StockNotEnough(name) => Some("Product " + name + " stock is not enough")
    case NumberExhausted => None
    case Invalid(_) => None
  }

  /** A field name as Laravel's default messages print it: underscores become spaces. */
  function Readable(field: string): string {
    seq(|field|, i requires 0 <= i < |field| => if field[i] == '_' then ' ' else field[i])
  }

  /** The validation error bag: the default `required` message for each failing field. */
  function ErrorBag(e: OrderError): map<string, string> {
    match e
    case Invalid(fields) => map f | f in fields :: "The " + Readable(f) + " field is required."
    case _ => map[]
  }

  /** Shipping fee in cents: 9.99 up to and including a 100.00 subtotal, free above it. */
  const ShippingFee: int := 999
  const FreeShippingAbove: int := 10000

  function ShippingFor(subtotal: int): int {
    if subtotal <= FreeShippingAbove then ShippingFee else 0
  }

  /** The result of folding the lines: the created items, Σ price·qty and the decremented products. */
  datatype Placed = Placed(items: seq<OrderItem>, subtotal: int, products: map<ProductId, Product>)

  /** The loop body of `store`, one line at a time, failing at the first line that cannot be served. */
  function PlaceLines(products: map<ProductId, Product>, orderId: nat, lines: seq<LineRequest>)
    : (r: Result<Placed, OrderError>)
    ensures r.Success? ==> |r.value.items| == |lines| && r.value.products.Keys == products.Keys
    ensures r.Failure? ==> r.error.ProductMissing? || r.error.OutOfStock? || r.error.StockNotEnough?
    decreases |lines|
  {
    if |lines| == 0 then Success(Placed([], 0, products))
    else
      var line := lines[0];
      if line.productId !in products then Failure(ProductMissing(line.productId))
      else
        var p := products[line.productId];
        if p.stock == 0 then Failure(OutOfStock(p.name))
        else if p.stock < line.quantity then Failure(StockNotEnough(p.name))
        else
          var item := OrderItem(orderId, p.name, p.price, line.quantity);
          var decremented := products[line.productId := p.(stock := p.stock - line.quantity)];
          match PlaceLines(decremented, orderId, lines[1..])
          case Failure(e) => Failure(e)
          case Success(rest) =>
            Success(Placed([item] + rest.items, p.price * line.quantity + rest.subtotal, rest.products))
  }

  // ---------------------------------------------------------------------
  // Reference definitions, independent of the fold
  // ---------------------------------------------------------------------

  /** Total quantity requested for product `id` over `lines`. */
  function QtyFor(lines: seq<LineRequest>, id: ProductId): int {
    if |lines| == 0 then 0
    else (if lines[0].productId == id then lines[0].quantity else 0) + QtyFor(lines[1..], id)
  }

  /** `collect($request->items)->sum('quantity')`. */
  function TotalQty(lines: seq<LineRequest>): int {
    if |lines| == 0 then 0 else lines[0].quantity + TotalQty(lines[1..])
  }

  predicate AllKnown(products: map<ProductId, Product>, lines: seq<LineRequest>) {
    forall i :: 0 <= i < |lines| ==> lines[i].productId in products
  }

  /** Σ price·qty at the prices stored before the order. */
  function Subtotal(products: map<ProductId, Product>, lines: seq<LineRequest>): int
    requires AllKnown(products, lines)
  {
    if |lines| == 0 then 0
    else products[lines[0].productId].price * lines[0].quantity + Subtotal(products, lines[1..])
  }

  /** The stock line `i` sees: the original stock minus what earlier lines took of the same product. */
  function StockSeenBy(products: map<ProductId, Product>, lines: seq<LineRequest>, i: nat): int
    requires i < |lines| && lines[i].productId in products
  {
    products[lines[i].productId].stock - QtyFor(lines[..i], lines[i].productId)
  }

  /** Line `i` cannot be served: its product is missing, or the stock it sees is 0 or below its quantity. */
  predicate LineFails(products: map<ProductId, Product>, lines: seq<LineRequest>, i: nat)
    requires i < |lines|
  {
    lines[i].productId !in products
    || StockSeenBy(products, lines, i) == 0
    || StockSeenBy(products, lines, i) < lines[i].quantity
  }

  /** The error line `i` raises when it fails. */
  function ErrorAt(products: map<ProductId, Product>, lines: seq<LineRequest>, i: nat): OrderError
    requires i < |lines|
  {
    var id := lines[i].productId;
    if id !in products then ProductMissing(id)
    else if StockSeenBy(products, lines, i) == 0 then OutOfStock(products[id].name)
    else StockNotEnough(products[id].name)
  }

  predicate StocksNonNegative(products: map<ProductId, Product>) {
    forall id :: id in products ==> products[id].stock >= 0
  }

  // ---------------------------------------------------------------------
  // Lemmas about the fold
  // ---------------------------------------------------------------------

  /** Decrementing one product's stock shifts what each later line sees by the earlier line's quantity. */
  lemma StockSeenAfterHead(products: map<ProductId, Product>, lines: seq<LineRequest>, i: nat)
    requires 1 <= i < |lines| && lines[0].productId in products && lines[i].productId in products
    ensures
      var p := products[lines[0].productId];
      var decremented := products[lines[0].productId := p.(stock := p.stock - lines[0].quantity)];
      StockSeenBy(decremented, lines[1..], i - 1) == StockSeenBy(products, lines, i)
  {
    assert lines[..i][1..] == lines[1..][..i - 1];
  }

  /** Once the first line is served, every later line fails, and with the same error, exactly as it does in the rest of the fold. */
  lemma TailLines(products: map<ProductId, Product>, lines: seq<LineRequest>)
    requires |lines| > 0 && lines[0].productId in products
    requires products[lines[0].productId].stock != 0 && products[lines[0].productId].stock >= lines[0].quantity
    ensures !LineFails(products, lines, 0)
    ensures
      var p := products[lines[0].productId];
      var decremented := products[lines[0].productId := p.(stock := p.stock - lines[0].quantity)];
      forall i :: 1 <= i < |lines| ==>
        && (LineFails(products, lines, i) == LineFails(decremented, lines[1..], i - 1))
        && (LineFails(products, lines, i) ==> ErrorAt(products, lines, i) == ErrorAt(decremented, lines[1..], i - 1))
  {
    assert lines[..0] == [];
    var p := products[lines[0].productId];
    var decremented := products[lines[0].productId := p.(stock := p.stock - lines[0].quantity)];
    forall i | 1 <= i < |lines|
      ensures LineFails(products, lines, i) == LineFails(decremented, lines[1..], i - 1)
      ensures LineFails(products, lines, i) ==> ErrorAt(products, lines, i) == ErrorAt(decremented, lines[1..], i - 1)
    {
      if lines[i].productId in products {
        StockSeenAfterHead(products, lines, i);
      }
    }
  }

  /** The fold succeeds exactly when no line fails. */
  lemma {:induction false} PlaceLinesSucceeds(products: map<ProductId, Product>, orderId: nat, lines: seq<LineRequest>)
    ensures PlaceLines(products, orderId, lines).Success? <==> forall i :: 0 <= i < |lines| ==> !LineFails(products, lines, i)
    decreases |lines|
  {
    if |lines| > 0 {
      var line := lines[0];
      assert lines[..0] == [];
      if line.productId !in products || products[line.productId].stock == 0
        || products[line.productId].stock < line.quantity {
        assert LineFails(products, lines, 0);
      } else {
        var p := products[line.productId];
        var decremented := products[line.productId := p.(stock := p.stock - line.quantity)];
        PlaceLinesSucceeds(decremented, orderId, lines[1..]);
        TailLines(products, lines);
        if PlaceLines(decremented, orderId, lines[1..]).Failure? {
          var k :| 0 <= k < |lines[1..]| && LineFails(decremented, lines[1..], k);
          assert LineFails(products, lines, k + 1);
        } else {
          forall i | 0 <= i < |lines| ensures !LineFails(products, lines, i) {
            if i > 0 {
              assert !LineFails(decremented, lines[1..], i - 1);
            }
          }
        }
      }
    }
  }

  /** A failing fold reports the error of its first failing line. */
  lemma {:induction false} PlaceLinesFirstError(products: map<ProductId, Product>, orderId: nat, lines: seq<LineRequest>)
    ensures PlaceLines(products, orderId, lines).Failure? ==>
      exists i :: 0 <= i < |lines| && LineFails(products, lines, i)
        && (forall j :: 0 <= j < i ==> !LineFails(products, lines, j))
        && PlaceLines(products, orderId, lines).error == ErrorAt(products, lines, i)
    decreases |lines|
  {
    if |lines| > 0 {
      var line := lines[0];
      assert lines[..0] == [];
      if line.productId !in products || products[line.productId].stock == 0
        || products[line.productId].stock < line.quantity {
        assert LineFails(products, lines, 0);
      } else if PlaceLines(products, orderId, lines).Failure? {
        var p := products[line.productId];
        var decremented := products[line.productId := p.(stock := p.stock - line.quantity)];
        PlaceLinesFirstError(decremented, orderId, lines[1..]);
        TailLines(products, lines);
        var k :| 0 <= k < |lines[1..]| && LineFails(decremented, lines[1..], k)
          && (forall j :: 0 <= j < k ==> !LineFails(decremented, lines[1..], j))
          && PlaceLines(decremented, orderId, lines[1..]).error == ErrorAt(decremented, lines[1..], k);
        assert LineFails(products, lines, k + 1);
        forall j | 0 <= j < k + 1 ensures !LineFails(products, lines, j) {
          if j > 0 {
            assert !LineFails(decremented, lines[1..], j - 1);
          }
        }
      }
    }
  }

  /** The fold fails exactly when some line fails, and then with the error of the first failing line. */
  lemma PlaceLinesFailure(products: map<ProductId, Product>, orderId: nat, lines: seq<LineRequest>)
    ensures PlaceLines(products, orderId, lines).Success? <==> forall i :: 0 <= i < |lines| ==> !LineFails(products, lines, i)
    ensures PlaceLines(products, orderId, lines).Failure? ==>
      exists i :: 0 <= i < |lines| && LineFails(products, lines, i)
        && (forall j :: 0 <= j < i ==> !LineFails(products, lines, j))
        && PlaceLines(products, orderId, lines).error == ErrorAt(products, lines, i)
  {
    PlaceLinesSucceeds(products, orderId, lines);
    PlaceLinesFirstError(products, orderId, lines);
  }

  /** On success every product's stock dropped by exactly the total quantity requested for it; nothing else changed. */
  lemma {:induction false} PlaceLinesStock(products: map<ProductId, Product>, orderId: nat, lines: seq<LineRequest>)
    requires PlaceLines(products, orderId, lines).Success?
    ensures var after := PlaceLines(products, orderId, lines).value.products;
      forall id :: id in products ==>
        after[id] == products[id].(stock := products[id].stock - QtyFor(lines, id))
    decreases |lines|
  {
    if |lines| > 0 {
      var line := lines[0];
      var p := products[line.productId];
      var decremented := products[line.productId := p.(stock := p.stock - line.quantity)];
      PlaceLinesStock(decremented, orderId, lines[1..]);
    }
  }

  /** On success no stock is negative afterwards if none was before. */
  lemma {:induction false} PlaceLinesNonNegative(products: map<ProductId, Product>, orderId: nat, lines: seq<LineRequest>)
    requires StocksNonNegative(products)
    requires PlaceLines(products, orderId, lines).Success?
    ensures StocksNonNegative(PlaceLines(products, orderId, lines).value.products)
    decreases |lines|
  {
    if |lines| > 0 {
      var line := lines[0];
      var p := products[line.productId];
      var decremented := products[line.productId := p.(stock := p.stock - line.quantity)];
      PlaceLinesNonNegative(decremented, orderId, lines[1..]);
    }
  }

  /**
    On success there is one item per line, in input order, carrying the
    product's name and price as they were before the order, and the subtotal
    is Σ price·qty at those prices.
  */
  lemma {:induction false} PlaceLinesItems(products: map<ProductId, Product>, orderId: nat, lines: seq<LineRequest>)
    requires PlaceLines(products, orderId, lines).Success?
    ensures AllKnown(products, lines)
    ensures var placed := PlaceLines(products, orderId, lines).value;
      && (forall i :: 0 <= i < |lines| ==>
            placed.items[i] == OrderItem(orderId, products[lines[i].productId].name,
                                         products[lines[i].productId].price, lines[i].quantity))
      && placed.subtotal == Subtotal(products, lines)
    decreases |lines|
  {
    if |lines| > 0 {
      var line := lines[0];
      var p := products[line.productId];
      var decremented := products[line.productId := p.(stock := p.stock - line.quantity)];
      PlaceLinesItems(decremented, orderId, lines[1..]);
      SubtotalSamePrices(decremented, products, lines[1..]);
      var placed := PlaceLines(products, orderId, lines).value;
      var rest := PlaceLines(decremented, orderId, lines[1..]).value;
      assert placed.items == [OrderItem(orderId, p.name, p.price, line.quantity)] + rest.items;
      forall i | 1 <= i < |lines|
        ensures placed.items[i] == OrderItem(orderId, products[lines[i].productId].name,
                                             products[lines[i].productId].price, lines[i].quantity)
      {
        assert lines[i] == lines[1..][i - 1];
        assert placed.items[i] == rest.items[i - 1];
      }
    }
  }

  /** Σ price·qty depends only on the prices, not on the stock. */
  lemma {:induction false} SubtotalSamePrices(a: map<ProductId, Product>, b: map<ProductId, Product>, lines: seq<LineRequest>)
    requires a.Keys == b.Keys
    requires forall id :: id in a ==> a[id].price == b[id].price
    requires AllKnown(a, lines)
    ensures AllKnown(b, lines) && Subtotal(a, lines) == Subtotal(b, lines)
    decreases |lines|
  {
    if |lines| > 0 {
      SubtotalSamePrices(a, b, lines[1..]);
    }
  }

  // ---------------------------------------------------------------------
  // The action
  // ---------------------------------------------------------------------

  /** What one call of `store` leaves behind: the shop tables and either the new order or the error. */
  datatype StoreOutcome = StoreOutcome(shop: Shop, result: Result<Order, OrderError>)

  /**
    The request fields that fail `$request->validate`, in rule order: an empty
    `address` array, a blank `payment_method` and an empty `items` array each
    fail `required`. The shapes the `array` and `string` rules check are given
    by the parameter types.
  */
  function InvalidFields(address: map<string, string>, paymentMethod: string, lines: seq<LineRequest>): (r: seq<string>)
    ensures "address" in r <==> |address| == 0
    ensures "payment_method" in r <==> !Php.Required(paymentMethod)
    ensures "items" in r <==> |lines| == 0
    ensures forall f :: f in r ==> f in ["address", "payment_method", "items"]
  {
    (if |address| == 0 then ["address"] else [])
    + (if Php.Required(paymentMethod) then [] else ["payment_method"])
    + (if |lines| == 0 then ["items"] else [])
  }

  /** The request passes validation. */
  predicate RequestValid(address: map<string, string>, paymentMethod: string, lines: seq<LineRequest>) {
    |address| > 0 && Php.Required(paymentMethod) && |lines| > 0
  }

  /**
    `OrderController::store`. Validation runs first and stops the action before
    anything is written. The order number is generated before the transaction
    from `draws`; the order header, its items and the stock decrements are
    written together or not at all. `initialStatus` is the `orders.status`
    column default, which the action does not set.
  */
  function Store(
    shop: Shop, userId: nat, address: map<string, string>, paymentMethod: string,
    lines: seq<LineRequest>, today: Date, draws: seq<Sample>, initialStatus: string)
    : (r: StoreOutcome)
    requires ValidDate(today)
    ensures r.result.Failure? ==> r.shop == shop
    ensures !RequestValid(address, paymentMethod, lines) <==> r.result.Failure? && r.result.error.Invalid?
    ensures !RequestValid(address, paymentMethod, lines) ==>
      r.result.error.fields == InvalidFields(address, paymentMethod, lines) && |r.result.error.fields| > 0
    ensures r.result.Success? ==>
      var order := r.result.value;
      && |lines| > 0
      && order.totalItems == TotalQty(lines)
      && order.orderNumber !in NumbersOf(shop.orders)
      && WellFormedNumber(order.orderNumber)
      && order.id == shop.nextOrderId
      && order.userId == userId
      && order.address == address
      && order.paymentMethod == paymentMethod
      && order.status == initialStatus
      && r.shop.orders == shop.orders + [order]
      && r.shop.nextOrderId == shop.nextOrderId + 1
  {
    if !RequestValid(address, paymentMethod, lines) then
      StoreOutcome(shop, Failure(Invalid(InvalidFields(address, paymentMethod, lines))))
    else
    match GenerateOrderNumber(NumbersOf(shop.orders), today, draws)
    case None => StoreOutcome(shop, Failure(NumberExhausted))
    case Some(number) =>
      var orderId := shop.nextOrderId;
      match PlaceLines(shop.products, orderId, lines)
      case Failure(e) => StoreOutcome(shop, Failure(e))
      case Success(placed) =>
        var order := Order(orderId, number, userId, placed.subtotal + ShippingFor(placed.subtotal),
                           TotalQty(lines), address, paymentMethod, initialStatus);
        StoreOutcome(Shop(placed.products, shop.orders + [order], shop.orderItems + placed.items, orderId + 1),
                     Success(order))
  }

  /** An order without items is refused by validation before anything is written. */
  lemma EmptyItemsRejected(
    shop: Shop, userId: nat, address: map<string, string>, paymentMethod: string,
    today: Date, draws: seq<Sample>, initialStatus: string)
    requires ValidDate(today)
    ensures
      var r := Store(shop, userId, address, paymentMethod, [], today, draws, initialStatus);
      r.shop == shop && r.result.Failure? && r.result.error.Invalid? && "items" in r.result.error.fields
  {
  }

  /**
    A successful order's effect on the tables: one item per line in order with
    the pre-order name and price, stock reduced by each product's requested
    total and never below zero, and a total of Σ price·qty plus the shipping fee.
  */
  lemma StoreSuccess(
    shop: Shop, userId: nat, address: map<string, string>, paymentMethod: string,
    lines: seq<LineRequest>, today: Date, draws: seq<Sample>, initialStatus: string)
    requires ValidDate(today)
    requires RequestValid(address, paymentMethod, lines)
    requires GenerateOrderNumber(NumbersOf(shop.orders), today, draws).Some?
    requires forall i :: 0 <= i < |lines| ==> !LineFails(shop.products, lines, i)
    ensures AllKnown(shop.products, lines)
    ensures Store(shop, userId, address, paymentMethod, lines, today, draws, initialStatus).result.Success?
    ensures
      var r := Store(shop, userId, address, paymentMethod, lines, today, draws, initialStatus);
      r.result.Success? &&
      var order := r.result.value;
      var subtotal := Subtotal(shop.products, lines);
      && order.totalAmount == subtotal + (if subtotal <= 10000 then 999 else 0)
      && |r.shop.orderItems| == |shop.orderItems| + |lines|
      && r.shop.orderItems[..|shop.orderItems|] == shop.orderItems
      && (forall i :: 0 <= i < |lines| ==>
            r.shop.orderItems[|shop.orderItems| + i]
              == OrderItem(order.id, shop.products[lines[i].productId].name,
                           shop.products[lines[i].productId].price, lines[i].quantity))
      && r.shop.products.Keys == shop.products.Keys
      && (forall id :: id in shop.products ==>
            r.shop.products[id] == shop.products[id].(stock := shop.products[id].stock - QtyFor(lines, id)))
      && (StocksNonNegative(shop.products) ==> StocksNonNegative(r.shop.products))
  {
    var orderId := shop.nextOrderId;
    PlaceLinesFailure(shop.products, orderId, lines);
    PlaceLinesItems(shop.products, orderId, lines);
    PlaceLinesStock(shop.products, orderId, lines);
    if StocksNonNegative(shop.products) {
      PlaceLinesNonNegative(shop.products, orderId, lines);
    }
  }

  /** A failed order names the first line that could not be served, and the tables are untouched. */
  lemma StoreFailure(
    shop: Shop, userId: nat, address: map<string, string>, paymentMethod: string,
    lines: seq<LineRequest>, today: Date, draws: seq<Sample>, initialStatus: string)
    requires ValidDate(today)
    requires RequestValid(address, paymentMethod, lines)
    requires GenerateOrderNumber(NumbersOf(shop.orders), today, draws).Some?
    requires exists i :: 0 <= i < |lines| && LineFails(shop.products, lines, i)
    ensures
      var r := Store(shop, userId, address, paymentMethod, lines, today, draws, initialStatus);
      && r.shop == shop
      && r.result.Failure?
      && exists i :: 0 <= i < |lines| && LineFails(shop.products, lines, i)
           && (forall j :: 0 <= j < i ==> !LineFails(shop.products, lines, j))
           && r.result.error == ErrorAt(shop.products, lines, i)
  {
    PlaceLinesFailure(shop.products, shop.nextOrderId, lines);
  }

  /** A line whose product has zero stock fails the order with the out-of-stock message naming it. */
  lemma ZeroStockMessage(products: map<ProductId, Product>, orderId: nat, line: LineRequest)
    requires line.productId in products && products[line.productId].stock == 0
    ensures PlaceLines(products, orderId, [line])
      == Failure(OutOfStock(products[line.productId].name))
    ensures Message(PlaceLines(products, orderId, [line]).error)
      == Some("Product " + products[line.productId].name + " is out of stock")
  {
  }

  /** The shipping boundary: a 100.00 subtotal pays 9.99, a 100.01 subtotal pays nothing. */
  lemma ShippingBoundary()
    ensures ShippingFor(10000) == 999 && ShippingFor(10001) == 0
  {
  }

  /** Non-positive quantities are not rejected: such a line passes the stock check and raises the stock. */
  lemma NegativeQuantityRestocks()
    ensures
      var products := map[1 := Product("Mug", 500, 3)];
      var r := PlaceLines(products, 7, [LineRequest(1, -2)]);
      r.Success? && r.value.products[1].stock == 5 && r.value.subtotal == -1000
  {
  }
}

=== FILE: password_reset.dfy ===
/**
  The one-time-password reset flow, spread over three controllers:
  issuing (app/Http/Controllers/Settings/PasswordResetController.php),
  verifying (app/Http/Controllers/OtpVerifyController.php) and resetting
  (app/Http/Controllers/Settings/NewPasswordController.php).

  The state is the `password_reset_tokens` table (email to hashed code), the
  flashed session and the users' passwords. The random code comes from a seed,
  the clock is a Unix timestamp argument, and `Hash::make` / `Hash::check` are
  the injective digest `Hashed` and a comparison against it.
*/
module PasswordReset {
  import opened Wrappers
  import opened FlashSession
  import Php

  type Email = string

  /** A one-way digest of a code: equal digests come from equal codes. */
  datatype Digest = Hashed(secret: int)

  datatype TokenRow = TokenRow(token: Digest, createdAt: int)

  type TokenTable = map<Email, TokenRow>

  const EmailKey: string := "email"
  const ExpiredAtKey: string := "expiredAt"
  const StatusKey: string := "status"
  const KeywordKey: string := "keyword"

  /** The keys the issuing and verifying steps flash and keep. */
  const OtpKeys: set<string> := {EmailKey, ExpiredAtKey, StatusKey}

  const MinCode: int := 100000
  const MaxCode: int := 999999

  /** Seconds a code stays valid: three minutes. */
  const OtpLifetime: int := 180

  const SentStatus: string := "OTP code sent to your email"
  const VerifiedKeyword: string := "success_otp_verify"
  const UpdatedStatus: string := "Password updated successfully"

  /** `rand(100000, 999999)`, drawn from a seed. */
  function OtpCode(seed: nat): (code: int)
    ensures MinCode <= code <= MaxCode
  {
    MinCode + seed % (MaxCode - MinCode + 1)
  }

  /** Every six-digit code can be drawn. */
  lemma OtpCodeCovers(code: int)
    requires MinCode <= code <= MaxCode
    ensures OtpCode(code - MinCode) == code
  {
  }

  /** The props `create` passes to the forgot-password page. */
  datatype ForgotView = ForgotView(email: Value, expiredAt: Value, status: Value)

  /**
    `PasswordResetController::create`: show the flashed values and, when an
    email is present, keep them for one more request.
  */
  function Create(s: Session): (r: (Session, ForgotView))
    ensures r.1 == ForgotView(Get(s, EmailKey), Get(s, ExpiredAtKey), Get(s, StatusKey))
    ensures Truthy(Get(s, EmailKey)) ==> forall k :: k in OtpKeys ==> Get(EndRequest(r.0), k) == Get(s, k)
    ensures r.0.data == s.data && SameOutside(s, r.0, OtpKeys)
    ensures !Truthy(Get(s, EmailKey)) ==> r.0 == s
  {
    var email := Get(s, EmailKey);
    var view := ForgotView(email, Get(s, ExpiredAtKey), Get(s, StatusKey));
    if Truthy(email) then (Keep(s, OtpKeys), view) else (s, view)
  }

  /** Without an email, flashed values from the last request do not outlive this one. */
  lemma CreateWithoutEmailLetsFlashExpire(s: Session, k: string)
    requires !Truthy(Get(s, EmailKey))
    requires k in s.oldFlash
    ensures Get(EndRequest(Create(s).0), k) == Null
  {
  }

  /** `changeEmail`: forget the flashed email, expiry and status. */
  function ChangeEmail(s: Session): (r: Session)
    ensures forall k :: k in OtpKeys ==> Get(r, k) == Null
    ensures forall k :: k !in OtpKeys ==> Get(r, k) == Get(s, k)
  {
    Forget(s, OtpKeys)
  }

  /** What a successful `store` produces: the new token table and session, and the mail it queues. */
  datatype Issued = Issued(tokens: TokenTable, session: Session, mailTo: Email, code: int)

  datatype IssueError = UnknownEmail

  /**
    `PasswordResetController::store`: for a registered email, draw a code,
    upsert its digest as the email's only token, queue the code by mail and
    flash the email, the expiry (now + 180 s) and the status. An unknown email
    fails validation and changes nothing.
  */
  function IssueOtp(users: set<Email>, tokens: TokenTable, s: Session, email: Email, seed: nat, now: int)
    : (r: Result<Issued, IssueError>)
    ensures r.Failure? <==> email !in users
    ensures r.Success? ==>
      var out := r.value;
      && MinCode <= out.code <= MaxCode
      && out.mailTo == email
      && out.tokens.Keys == tokens.Keys + {email}
      && out.tokens[email] == TokenRow(Hashed(out.code), now)
      && (forall e :: e in tokens && e != email ==> out.tokens[e] == tokens[e])
      && Get(out.session, EmailKey) == Text(email)
      && Get(out.session, ExpiredAtKey) == Number(now + OtpLifetime)
      && Get(out.session, StatusKey) == Text(SentStatus)
      && OtpKeys <= out.session.newFlash
      && (forall k :: k !in OtpKeys ==> Get(out.session, k) == Get(s, k))
      && SameOutside(s, out.session, OtpKeys)
  {
    if email !in users then Failure(UnknownEmail)
    else
      var code := OtpCode(seed);
      var tokens' := tokens[email := TokenRow(Hashed(code), now)];
      var s1 := Flash(s, EmailKey, Text(email));
      var s2 := Flash(s1, ExpiredAtKey, Number(now + OtpLifetime));
      var s3 := Flash(s2, StatusKey, Text(SentStatus));
      Success(Issued(tokens', s3, email, code))
  }

  /** Re-issuing for the same email replaces its token: only the latest code verifies. */
  lemma ReissueReplacesToken(users: set<Email>, tokens: TokenTable, s: Session, email: Email, seed1: nat, seed2: nat, t1: int, t2: int)
    requires email in users
    requires OtpCode(seed1) != OtpCode(seed2)
    ensures
      var first := IssueOtp(users, tokens, s, email, seed1, t1).value;
      var second := IssueOtp(users, first.tokens, first.session, email, seed2, t2).value;
      second.tokens[email].token != Hashed(first.code) && second.tokens[email].token == Hashed(second.code)
  {
  }

  /** The token row `where('email', $email)->first()` finds; a missing email matches no row. */
  function RecordFor(tokens: TokenTable, email: Value): Option<TokenRow> {
    match email
    case Text(e) => if e in tokens then Some(tokens[e]) else None
    case _ => None
  }

  /** `$expiredAt <= now()->timestamp`; a missing expiry compares as expired (`null <= $now` holds in PHP). */
  predicate Expired(expiredAt: Value, now: int) {
    match expiredAt
    case Number(t) => t <= now
    case _ => true
  }

  datatype Verification = Verification(tokens: TokenTable, session: Session, accepted: bool)

  /**
    `OtpVerifyController::verifyOtp`: accept when a token exists for the
    session email, the code hashes to it and the session expiry is still in
    the future. Acceptance consumes the token and flashes the email and the
    success keyword; rejection re-flashes the email, expiry and status.
  */
  function VerifyOtp(tokens: TokenTable, s: Session, otp: int, now: int): (r: Verification)
    ensures RecordFor(tokens, Get(s, EmailKey)).None? ==> !r.accepted
    ensures RecordFor(tokens, Get(s, EmailKey)).Some? && RecordFor(tokens, Get(s, EmailKey)).value.token != Hashed(otp)
      ==> !r.accepted
    ensures Expired(Get(s, ExpiredAtKey), now) ==> !r.accepted
    ensures (RecordFor(tokens, Get(s, EmailKey)).Some? && RecordFor(tokens, Get(s, EmailKey)).value.token == Hashed(otp)
             && !Expired(Get(s, ExpiredAtKey), now)) ==> r.accepted
    ensures !r.accepted ==>
      && r.tokens == tokens
      && (forall k :: k in OtpKeys ==> Get(r.session, k) == Get(s, k))
      && OtpKeys <= r.session.newFlash
      && SameOutside(s, r.session, OtpKeys)
    ensures r.accepted ==>
      && Get(s, EmailKey).Text?
      && r.tokens == tokens - {Get(s, EmailKey).text}
      && Get(r.session, EmailKey) == Get(s, EmailKey)
      && Get(r.session, KeywordKey) == Text(VerifiedKeyword)
      && {EmailKey, KeywordKey} <= r.session.newFlash
      && SameOutside(s, r.session, OtpKeys + {KeywordKey})
  {
    var email := Get(s, EmailKey);
    var expiredAt := Get(s, ExpiredAtKey);
    var status := Get(s, StatusKey);
    var s1 := if Truthy(email) then Keep(s, OtpKeys) else s;
    var record := RecordFor(tokens, email);
    var checkOtp := record.Some? && record.value.token == Hashed(otp);
    if record.None? || !checkOtp || Expired(expiredAt, now) then
      var back := Flash(Flash(Flash(s1, EmailKey, email), ExpiredAtKey, expiredAt), StatusKey, status);
      Verification(tokens, back, false)
    else
      var next := Flash(Flash(s1, EmailKey, email), KeywordKey, Text(VerifiedKeyword));
      Verification(tokens - {email.text}, next, true)
  }

  /** A code verifies at most once: after acceptance the same email has no token left. */
  lemma VerifyConsumesToken(tokens: TokenTable, s: Session, otp: int, now: int, s': Session, otp': int, now': int)
    requires VerifyOtp(tokens, s, otp, now).accepted
    requires Get(s', EmailKey) == Get(s, EmailKey)
    ensures !VerifyOtp(VerifyOtp(tokens, s, otp, now).tokens, s', otp', now').accepted
  {
  }

  /**
    `NewPasswordController::show`: the reset form is shown only when the
    session carries the success keyword; the email and keyword are kept when an
    email is present.
  */
  function Show(s: Session): (r: (Session, bool))
    ensures r.1 <==> Get(s, KeywordKey) == Text(VerifiedKeyword)
    ensures Truthy(Get(s, EmailKey)) ==>
      Get(EndRequest(r.0), EmailKey) == Get(s, EmailKey) && Get(EndRequest(r.0), KeywordKey) == Get(s, KeywordKey)
    ensures r.0.data == s.data && SameOutside(s, r.0, {EmailKey, KeywordKey})
  {
    var s1 := if Truthy(Get(s, EmailKey)) then Keep(s, {EmailKey, KeywordKey}) else s;
    var keyword := Get(s, KeywordKey);
    (s1, keyword.Text? && Php.StringTruthy(keyword.text) && keyword.text == VerifiedKeyword)
  }

  /** The `required|string|confirmed` rule on the new password. */
  predicate PasswordAcceptable(password: string, confirmation: Option<string>) {
    Php.Required(password)
    && confirmation == Some(password)
  }

  datatype ResetReply = PasswordUpdated | NoSuchUser | ValidationFailed

  datatype ResetOutcome = ResetOutcome(users: map<Email, string>, session: Session, reply: ResetReply)

  /**
    `NewPasswordController::reset`: after validation, set the password of the
    user whose email is in the session, forget the email and keyword, and
    flash the "Password updated successfully" status for the login page. The
    keyword itself is not consulted here.
  */
  function Reset(users: map<Email, string>, s: Session, password: string, confirmation: Option<string>)
    : (r: ResetOutcome)
    ensures r.reply == ValidationFailed <==> !PasswordAcceptable(password, confirmation)
    ensures r.reply == PasswordUpdated <==>
      PasswordAcceptable(password, confirmation) && Get(s, EmailKey).Text? && Get(s, EmailKey).text in users
    ensures r.reply != PasswordUpdated ==> r.users == users
    ensures r.reply == PasswordUpdated ==>
      var e := Get(s, EmailKey).text;
      && r.users.Keys == users.Keys
      && r.users[e] == password
      && (forall other :: other in users && other != e ==> r.users[other] == users[other])
      && Get(r.session, EmailKey) == Null
      && Get(r.session, KeywordKey) == Null
      && Get(r.session, StatusKey) == Text(UpdatedStatus)
      && StatusKey in r.session.newFlash
    // nothing outside the email and keyword (and, after an update, the status) is touched
    ensures r.reply == PasswordUpdated ==> SameOutside(s, r.session, {EmailKey, KeywordKey, StatusKey})
    ensures r.reply != PasswordUpdated ==> SameOutside(s, r.session, {EmailKey, KeywordKey})
    // on any other reply the session is kept for a retry: the data is unchanged,
    // and a present email carries both keys into the next request
    ensures r.reply != PasswordUpdated ==>
      && r.session.data == s.data
      && (Truthy(Get(s, EmailKey)) ==>
            Get(EndRequest(r.session), EmailKey) == Get(s, EmailKey)
            && Get(EndRequest(r.session), KeywordKey) == Get(s, KeywordKey))
      && (!Truthy(Get(s, EmailKey)) ==> r.session == s)
  {
    var email := Get(s, EmailKey);
    var s1 := if Truthy(email) then Keep(s, {EmailKey, KeywordKey}) else s;
    if !PasswordAcceptable(password, confirmation) then ResetOutcome(users, s1, ValidationFailed)
    else if email.Text? && email.text in users then
      var cleared := Forget(s1, {EmailKey, KeywordKey});
      ResetOutcome(users[email.text := password], Flash(cleared, StatusKey, Text(UpdatedStatus)), PasswordUpdated)
    else ResetOutcome(users, s1, NoSuchUser)
  }

  /**
    A rejected password does not end the flow: the next request still holds
    the email, so a corrected submission updates the password.
  */
  lemma ResetRetry(users: map<Email, string>, s: Session, bad: string, badConfirmation: Option<string>,
                   password: string, confirmation: Option<string>)
    requires Get(s, EmailKey).Text? && Php.StringTruthy(Get(s, EmailKey).text) && Get(s, EmailKey).text in users
    requires PasswordAcceptable(password, confirmation)
    ensures
      var first := Reset(users, s, bad, badConfirmation);
      first.reply == ValidationFailed ==>
        Reset(users, EndRequest(first.session), password, confirmation).reply == PasswordUpdated
  {
  }

  /** `reset` decides on the session email alone: two sessions differing only in the keyword give the same users and reply. */
  lemma ResetIgnoresKeyword(users: map<Email, string>, s: Session, keyword: Value, password: string, confirmation: Option<string>)
    ensures
      var a := Reset(users, s, password, confirmation);
      var b := Reset(users, Session(s.data[KeywordKey := keyword], s.newFlash, s.oldFlash), password, confirmation);
      a.users == b.users && a.reply == b.reply
  {
  }

  // ---------------------------------------------------------------------
  // The flow across requests
  // ---------------------------------------------------------------------

  /**
    The whole flow: `store`, the redirect back to `create`, then `verifyOtp`
    with the mailed code before expiry, `show`, and `reset`. Verification
    accepts, a second verification fails, the form is shown and the password
    is set.
  */
  lemma OtpFlow(users: map<Email, string>, tokens: TokenTable, s: Session, email: Email, seed: nat, t: int, now: int,
                password: string)
    requires email in users && Php.StringTruthy(email)
    requires now < t + OtpLifetime
    requires Php.Required(password)
    ensures
      var issued := IssueOtp(users.Keys, tokens, s, email, seed, t).value;
      var beforeVerify := EndRequest(Create(EndRequest(issued.session)).0);
      var v := VerifyOtp(issued.tokens, beforeVerify, issued.code, now);
      var shown := Show(EndRequest(v.session));
      var done := Reset(users, EndRequest(shown.0), password, Some(password));
      && v.accepted
      && !VerifyOtp(v.tokens, beforeVerify, issued.code, now).accepted
      && shown.1
      && done.reply == PasswordUpdated
      && done.users[email] == password
  {
    var issued := IssueOtp(users.Keys, tokens, s, email, seed, t).value;
    var afterStore := EndRequest(issued.session);
    var beforeVerify := EndRequest(Create(afterStore).0);
    assert Get(afterStore, EmailKey) == Text(email);
    assert Get(beforeVerify, EmailKey) == Text(email);
    assert Get(beforeVerify, ExpiredAtKey) == Number(t + OtpLifetime);
    var v := VerifyOtp(issued.tokens, beforeVerify, issued.code, now);
    assert v.accepted;
    VerifyConsumesToken(issued.tokens, beforeVerify, issued.code, now, beforeVerify, issued.code, now);
    var afterVerify := EndRequest(v.session);
    assert Get(afterVerify, EmailKey) == Text(email);
    var shown := Show(afterVerify);
    assert Get(EndRequest(shown.0), EmailKey) == Text(email);
  }

  /** The right code is refused once the three minutes are over. */
  lemma ExpiredCodeRejected(users: set<Email>, tokens: TokenTable, s: Session, email: Email, seed: nat, t: int, now: int)
    requires email in users && Php.StringTruthy(email)
    requires now >= t + OtpLifetime
    ensures
      var issued := IssueOtp(users, tokens, s, email, seed, t).value;
      var beforeVerify := EndRequest(Create(EndRequest(issued.session)).0);
      !VerifyOtp(issued.tokens, beforeVerify, issued.code, now).accepted
  {
    var issued := IssueOtp(users, tokens, s, email, seed, t).value;
    var beforeVerify := EndRequest(Create(EndRequest(issued.session)).0);
    assert Get(beforeVerify, ExpiredAtKey) == Number(t + OtpLifetime);
  }

  /** Without the intermediate `create` that keeps them, the flashed email is gone and verification fails. */
  lemma FlashLostWithoutKeep(users: set<Email>, tokens: TokenTable, s: Session, email: Email, seed: nat, t: int, now: int)
    requires email in users
    ensures
      var issued := IssueOtp(users, tokens, s, email, seed, t).value;
      !VerifyOtp(issued.tokens, EndRequest(EndRequest(issued.session)), issued.code, now).accepted
  {
    var issued := IssueOtp(users, tokens, s, email, seed, t).value;
    assert Get(EndRequest(EndRequest(issued.session)), EmailKey) == Null;
  }
}

=== FILE: php.dfy ===
/** PHP's loose truthiness, as used by `if ($x)`, `?:` and `when(...)` in the controllers. */
module Php {
  import opened Wrappers

  /** A PHP string is falsy exactly when it is empty or the single character `0`. */
  predicate StringTruthy(s: string) {
    s != "" && s != "0"
  }

  /** An optional string: a missing key or `null` is falsy. */
  predicate OptionTruthy(s: Option<string>) {
    s.Some? && StringTruthy(s.value)
  }

  /** The characters PHP's `trim` strips, which the `required` rule ignores. */
  predicate IsTrimmed(c: char) {
    c == ' ' || c == '\t' || c == '\n' || c == '\r' || c as int == 0 || c as int == 11
  }

  /** The `required` validation rule on a string: something is left after trimming. */
  predicate Required(s: string) {
    exists i :: 0 <= i < |s| && !IsTrimmed(s[i])
  }
}

=== FILE: product_service.dfy ===
/**
  The two pieces of `ProductService` (app/Services/ProductService.php) with
  business rules in them: choosing up to four related products for a product
  page, and rewriting a validated product form so that its categories and brand
  become ids, creating the missing ones.

  The product table is given newest first, which stands for `latest()`, and
  the random order of `inRandomOrder()` is an argument: the matching product
  ids in the order the database happened to return them.
*/
module ProductService {
  import opened Wrappers

  type ProductId = nat

  /** A product with the names of its categories. */
  datatype Listing = Listing(id: ProductId, categories: set<string>)

  const RelatedLimit: nat := 4

  predicate DistinctIds(catalog: seq<Listing>) {
    forall i, j :: 0 <= i < j < |catalog| ==> catalog[i].id != catalog[j].id
  }

  predicate Distinct(xs: seq<ProductId>) {
    forall i, j :: 0 <= i < j < |xs| ==> xs[i] != xs[j]
  }

  function IdsOf(catalog: seq<Listing>): set<ProductId> {
    set l | l in catalog :: l.id
  }

  /** Ids of the products other than `self` and not in `excluded`, newest first. */
  function Others(catalog: seq<Listing>, self: ProductId, excluded: set<ProductId>): (r: seq<ProductId>)
    ensures forall x :: x in r <==> x in IdsOf(catalog) && x != self && x !in excluded
    ensures DistinctIds(catalog) ==> Distinct(r)
    ensures |r| <= |catalog|
  {
    if |catalog| == 0 then []
    else
      var rest := Others(catalog[1..], self, excluded);
      assert IdsOf(catalog) == {catalog[0].id} + IdsOf(catalog[1..]) by {
        assert catalog == [catalog[0]] + catalog[1..];
      }
      if catalog[0].id != self && catalog[0].id !in excluded then
        assert DistinctIds(catalog) ==> catalog[0].id !in IdsOf(catalog[1..]);
        [catalog[0].id] + rest
      else rest
  }

  /** `->limit($n)`. */
  function Take(xs: seq<ProductId>, n: nat): (r: seq<ProductId>)
    ensures |r| == if |xs| < n then |xs| else n
    ensures r == xs[..|r|]
    ensures forall x :: x in r ==> x in xs
    ensures Distinct(xs) ==> Distinct(r)
  {
    if |xs| <= n then xs else xs[..n]
  }

  /** `getLatestProducts`: the newest four products other than this one. */
  function LatestProducts(catalog: seq<Listing>, product: Listing): (r: seq<ProductId>)
    ensures |r| <= RelatedLimit && product.id !in r
    ensures forall x :: x in r ==> x in IdsOf(catalog)
    ensures DistinctIds(catalog) ==> Distinct(r)
    // the leading entries of the catalogue order, and all of them when there are fewer than four
    ensures |r| <= |Others(catalog, product.id, {})| && r == Others(catalog, product.id, {})[..|r|]
    ensures |r| < RelatedLimit ==> r == Others(catalog, product.id, {})
  {
    Take(Others(catalog, product.id, {}), RelatedLimit)
  }

  /** Another product sharing a category name with this one. */
  predicate IsMatch(l: Listing, product: Listing) {
    l.id != product.id && l.categories * product.categories != {}
  }

  function MatchIds(catalog: seq<Listing>, product: Listing): set<ProductId> {
    set l | l in catalog && IsMatch(l, product) :: l.id
  }

  /** The order `inRandomOrder()` returned the matching products in: each match once. */
  predicate IsShuffle(shuffled: seq<ProductId>, catalog: seq<Listing>, product: Listing) {
    && Distinct(shuffled)
    && (forall x :: x in shuffled ==> x in MatchIds(catalog, product))
    && (forall x :: x in MatchIds(catalog, product) ==> x in shuffled)
  }

  /**
    `hasCategories`: up to four random category matches, topped up with the
    newest other products when fewer than four match, or the newest four
    others when the product has no categories or nothing matches.
  */
  function RelatedProducts(catalog: seq<Listing>, product: Listing, shuffled: seq<ProductId>): (r: seq<ProductId>)
    requires DistinctIds(catalog)
    requires IsShuffle(shuffled, catalog, product)
    ensures product.id !in r
    ensures |r| <= RelatedLimit
    ensures Distinct(r)
    ensures forall x :: x in r ==> x in IdsOf(catalog)
    ensures product.categories == {} || MatchIds(catalog, product) == {} ==> r == LatestProducts(catalog, product)
    ensures product.categories != {} ==>
      |Take(shuffled, RelatedLimit)| <= |r| && r[..|Take(shuffled, RelatedLimit)|] == Take(shuffled, RelatedLimit)
    ensures product.categories != {} && 0 < |shuffled| < RelatedLimit ==>
      r[|shuffled|..] == Take(Others(catalog, product.id, ElemsOf(shuffled)), RelatedLimit - |shuffled|)
  {
    if product.categories == {} then LatestProducts(catalog, product)
    else
      var related := Take(shuffled, RelatedLimit);
      assert |related| > 0 ==> related[0] in MatchIds(catalog, product);
      if |related| == 0 then
        assert |shuffled| == 0;
        LatestProducts(catalog, product)
      else if |related| < RelatedLimit then
        assert related == shuffled;
        var extra := Take(Others(catalog, product.id, ElemsOf(related)), RelatedLimit - |related|);
        var r := related + extra;
        assert forall x :: x in related ==> x in MatchIds(catalog, product);
        DistinctAppend(related, extra);
        assert r[..|related|] == related;
        r
      else
        assert forall x :: x in related ==> x in shuffled;
        related
  }

  /** Two duplicate-free sequences with nothing in common concatenate to a duplicate-free one. */
  lemma DistinctAppend(a: seq<ProductId>, b: seq<ProductId>)
    requires Distinct(a) && Distinct(b)
    requires forall x :: x in a ==> x !in b
    ensures Distinct(a + b)
  {
    var r := a + b;
    forall i, j | 0 <= i < j < |r| ensures r[i] != r[j] {
      if j >= |a| && i < |a| {
        assert r[j] == b[j - |a|] && r[i] == a[i];
        assert a[i] in a;
      } else if i >= |a| {
        assert r[i] == b[i - |a|] && r[j] == b[j - |a|];
      }
    }
  }

  function ElemsOf(xs: seq<ProductId>): (r: set<ProductId>)
    ensures forall x :: x in r <==> x in xs
  {
    if |xs| == 0 then {} else {xs[0]} + ElemsOf(xs[1..])
  }

  /** Distinct sequences have as many elements as their length. */
  lemma {:induction false} DistinctCardinality(xs: seq<ProductId>)
    requires Distinct(xs)
    ensures |ElemsOf(xs)| == |xs|
    decreases |xs|
  {
    if |xs| > 0 {
      var tail := xs[1..];
      assert Distinct(tail) by {
        forall i, j | 0 <= i < j < |tail| ensures tail[i] != tail[j] {
          assert tail[i] == xs[i + 1] && tail[j] == xs[j + 1];
        }
      }
      DistinctCardinality(tail);
      assert xs[0] !in ElemsOf(tail) by {
        forall k | 0 <= k < |tail| ensures tail[k] != xs[0] {
          assert tail[k] == xs[k + 1];
        }
      }
    }
  }

  /** The top-up candidates are the other products minus the matches already chosen. */
  lemma TopUpCount(catalog: seq<Listing>, self: ProductId, used: seq<ProductId>)
    requires DistinctIds(catalog)
    requires Distinct(used)
    requires forall x :: x in used ==> x in Others(catalog, self, {})
    ensures |Others(catalog, self, ElemsOf(used))| == |Others(catalog, self, {})| - |used|
  {
    var all := Others(catalog, self, {});
    var rest := Others(catalog, self, ElemsOf(used));
    DistinctCardinality(used);
    DistinctCardinality(all);
    DistinctCardinality(rest);
    assert ElemsOf(all) == ElemsOf(rest) + ElemsOf(used);
    assert ElemsOf(rest) !! ElemsOf(used);
  }

  /** When at least four other products exist, exactly four related products are shown. */
  lemma RelatedFillsToFour(catalog: seq<Listing>, product: Listing, shuffled: seq<ProductId>)
    requires DistinctIds(catalog)
    requires IsShuffle(shuffled, catalog, product)
    requires |Others(catalog, product.id, {})| >= RelatedLimit
    ensures |RelatedProducts(catalog, product, shuffled)| == RelatedLimit
  {
    var related := Take(shuffled, RelatedLimit);
    if product.categories != {} && 0 < |related| < RelatedLimit {
      assert related == shuffled;
      forall x | x in related ensures x in Others(catalog, product.id, {}) {
        assert x in MatchIds(catalog, product);
      }
      TopUpCount(catalog, product.id, related);
    }
  }

  // ---------------------------------------------------------------------
  // getNewCategoriesAndBrandIds
  // ---------------------------------------------------------------------

  /** A `{slug, name}` entry of the form. */
  datatype Spec = Spec(slug: string, name: string)

  /** A form value: a scalar, one entry (a brand to create) or a list of entries (categories). */
  datatype Field = Null | Str(text: string) | Num(number: int) | Entry(spec: Spec) | Entries(specs: seq<Spec>)

  datatype Row = Row(id: nat, name: string)

  /** A `categories` or `brands` table keyed by slug, with its next auto-increment id. */
  datatype Registry = Registry(rows: map<string, Row>, nextId: nat)

  predicate RegistryOk(reg: Registry) {
    forall slug :: slug in reg.rows ==> reg.rows[slug].id < reg.nextId
  }

  /** Rows of `a` are still in `b`, unchanged. */
  predicate Extends(a: Registry, b: Registry) {
    forall slug :: slug in a.rows ==> slug in b.rows && b.rows[slug] == a.rows[slug]
  }

  /** `firstOrCreate(['slug' => ...], ['name' => ...])`: the id of the row with this slug, creating it if needed. */
  function FirstOrCreate(reg: Registry, spec: Spec): (r: (nat, Registry))
    ensures spec.slug in r.1.rows && r.0 == r.1.rows[spec.slug].id
    ensures Extends(reg, r.1)
    ensures r.1.rows.Keys == reg.rows.Keys + {spec.slug}
    ensures spec.slug !in reg.rows ==> r.1.rows[spec.slug].name == spec.name
    ensures RegistryOk(reg) ==> RegistryOk(r.1) && (spec.slug !in reg.rows ==> forall s :: s in reg.rows ==> reg.rows[s].id != r.0)
  {
    if spec.slug in reg.rows then (reg.rows[spec.slug].id, reg)
    else (reg.nextId, Registry(reg.rows[spec.slug := Row(reg.nextId, spec.name)], reg.nextId + 1))
  }

  /** The slugs named by a list of entries. */
  function SlugsOf(specs: seq<Spec>): set<string> {
    set i | 0 <= i < |specs| :: specs[i].slug
  }

  /** The categories' `map(firstOrCreate)->pluck('id')`: one id per entry, in order. */
  function FirstOrCreateAll(reg: Registry, specs: seq<Spec>): (r: (seq<nat>, Registry))
    ensures |r.0| == |specs|
    ensures Extends(reg, r.1)
    ensures r.1.rows.Keys == reg.rows.Keys + SlugsOf(specs)
    ensures forall i :: 0 <= i < |specs| ==> specs[i].slug in r.1.rows && r.0[i] == r.1.rows[specs[i].slug].id
    ensures RegistryOk(reg) ==> RegistryOk(r.1)
    decreases |specs|
  {
    if |specs| == 0 then ([], reg)
    else
      var (id, reg1) := FirstOrCreate(reg, specs[0]);
      var (ids, reg2) := FirstOrCreateAll(reg1, specs[1..]);
      assert forall i :: 1 <= i < |specs| ==> specs[i] == specs[1..][i - 1];
      assert SlugsOf(specs) == {specs[0].slug} + SlugsOf(specs[1..]) by {
        forall x | x in SlugsOf(specs) ensures x in {specs[0].slug} + SlugsOf(specs[1..]) {
          var i :| 0 <= i < |specs| && specs[i].slug == x;
          if i > 0 {
            assert specs[1..][i - 1].slug == x;
          }
        }
      }
      ([id] + ids, reg2)
  }

  /** The category ids and the rewritten input of a successful call. */
  datatype Rewritten = Rewritten(categoryIds: seq<nat>, input: map<string, Field>)

  /**
    What one call leaves behind: the two tables, which keep every row written
    before a failure (the action runs no transaction), and the result.
  */
  datatype RewriteOutcome = RewriteOutcome(categories: Registry, brands: Registry, result: Result<Rewritten, RewriteError>)

  datatype RewriteError = CategoriesMissing | BrandMissing | CategoriesNotAList | BrandNotAnEntry

  /** `collect($categories)` can be mapped entry by entry: a list of entries, or `null`, which collects to nothing. */
  predicate ListLike(f: Field) {
    f.Null? || f.Entries?
  }

  function CategorySpecs(f: Field): seq<Spec>
    requires ListLike(f)
  {
    if f.Null? then [] else f.specs
  }

  /**
    `getNewCategoriesAndBrandIds`: turn the category entries into ids, turn a
    brand entry into the id of its row, and drop `categories` from the input.
    A missing key or a malformed field makes the PHP code raise, which the
    action does not catch. The failures come in evaluation order: reading
    `categories`, reading `brand_id`, mapping the categories (which writes
    their rows), then reading the brand entry's `slug`.
  */
  function GetNewCategoriesAndBrandIds(input: map<string, Field>, categories: Registry, brands: Registry)
    : (r: RewriteOutcome)
    ensures r.result.Success? <==>
      "categories" in input && "brand_id" in input && ListLike(input["categories"]) && !input["brand_id"].Entries?
    // failures before any row is written
    ensures "categories" !in input ==> r == RewriteOutcome(categories, brands, Failure(CategoriesMissing))
    ensures "categories" in input && "brand_id" !in input ==> r == RewriteOutcome(categories, brands, Failure(BrandMissing))
    ensures "categories" in input && "brand_id" in input && !ListLike(input["categories"]) ==>
      r == RewriteOutcome(categories, brands, Failure(CategoriesNotAList))
    // once the categories are mapped, their rows exist whether or not the brand can be read
    ensures "categories" in input && "brand_id" in input && ListLike(input["categories"]) ==>
      var specs := CategorySpecs(input["categories"]);
      && Extends(categories, r.categories)
      && r.categories.rows.Keys == categories.rows.Keys + SlugsOf(specs)
      && (RegistryOk(categories) ==> RegistryOk(r.categories))
    ensures "categories" in input && "brand_id" in input && ListLike(input["categories"]) && input["brand_id"].Entries? ==>
      r.result == Failure(BrandNotAnEntry) && r.brands == brands
    ensures r.result.Success? ==>
      var specs := CategorySpecs(input["categories"]);
      var out := r.result.value;
      && |out.categoryIds| == |specs|
      && (forall i :: 0 <= i < |specs| ==>
            specs[i].slug in r.categories.rows && out.categoryIds[i] == r.categories.rows[specs[i].slug].id)
      && Extends(brands, r.brands)
      && out.input.Keys == input.Keys - {"categories"}
      && (forall k :: k in out.input && k != "brand_id" ==> out.input[k] == input[k])
      && (input["brand_id"].Entry? ==>
            input["brand_id"].spec.slug in r.brands.rows
            && out.input["brand_id"] == Num(r.brands.rows[input["brand_id"].spec.slug].id)
            && r.brands.rows.Keys == brands.rows.Keys + {input["brand_id"].spec.slug})
      && (!input["brand_id"].Entry? ==> out.input["brand_id"] == input["brand_id"] && r.brands == brands)
  {
    if "categories" !in input then RewriteOutcome(categories, brands, Failure(CategoriesMissing))
    else if "brand_id" !in input then RewriteOutcome(categories, brands, Failure(BrandMissing))
    else if !ListLike(input["categories"]) then RewriteOutcome(categories, brands, Failure(CategoriesNotAList))
    else
      var (ids, categories') := FirstOrCreateAll(categories, CategorySpecs(input["categories"]));
      var brand := input["brand_id"];
      if brand.Entries? then RewriteOutcome(categories', brands, Failure(BrandNotAnEntry))
      else
        var (input', brands') :=
          if brand.Entry? then
            var (id, b) := FirstOrCreate(brands, brand.spec);
            (input["brand_id" := Num(id)], b)
          else (input, brands);
        RewriteOutcome(categories', brands', Success(Rewritten(ids, input' - {"categories"})))
  }

  /** Mapping entries whose slugs all have rows already writes nothing. */
  lemma {:induction false} FirstOrCreateAllPresent(reg: Registry, specs: seq<Spec>)
    requires SlugsOf(specs) <= reg.rows.Keys
    ensures FirstOrCreateAll(reg, specs).1 == reg
    decreases |specs|
  {
    if |specs| > 0 {
      assert specs[0].slug in SlugsOf(specs);
      assert SlugsOf(specs[1..]) <= SlugsOf(specs) by {
        forall x | x in SlugsOf(specs[1..]) ensures x in SlugsOf(specs) {
          var i :| 0 <= i < |specs[1..]| && specs[1..][i].slug == x;
          assert specs[i + 1].slug == x;
        }
      }
      FirstOrCreateAllPresent(reg, specs[1..]);
    }
  }

  /**
    Mapping the same categories a second time, as a resubmission after the
    brand failure does, reuses the rows the first call left behind: the same
    ids come back and no row is added.
  */
  lemma FirstOrCreateAllAgain(reg: Registry, specs: seq<Spec>)
    ensures var first := FirstOrCreateAll(reg, specs);
      FirstOrCreateAll(first.1, specs) == first
  {
    var first := FirstOrCreateAll(reg, specs);
    FirstOrCreateAllPresent(first.1, specs);
    var second := FirstOrCreateAll(first.1, specs);
    assert second.0 == first.0;
  }

  /** Entries repeating a slug get the same id, and only one row is created for it. */
  lemma RepeatedSlugSameId(reg: Registry, specs: seq<Spec>, i: nat, j: nat)
    requires i < |specs| && j < |specs| && specs[i].slug == specs[j].slug
    ensures FirstOrCreateAll(reg, specs).0[i] == FirstOrCreateAll(reg, specs).0[j]
  {
  }
}

=== FILE: wrappers.dfy ===
/** Failure-carrying datatypes shared by every module of the storefront model. */
module Wrappers {

  /** A value that may be missing, as a PHP `null` or a JavaScript `undefined`. */
  datatype Option<+T> = None | Some(value: T) {

    /** Returns the carried value, or `default` when there is none. */
    function GetOr(default: T): T {
      match this
      case Some(v) => v
      case None => default
    }
  }

  /** The outcome of an operation that can fail with an error of type `E`. */
  datatype Result<+R, +E> = Success(value: R) | Failure(error: E)
}
